=== FILE: README.md ===
# csv-uploader: the upload pipeline in Dafny

This project models the upload service of csv-uploader (a FastAPI application) in Dafny. It covers:

- `POST /upload`: the ".csv" gate, the storage key, the row count, the insert as "processing", the object-store write, the final status and the two response shapes.
- `GET /files` and `GET /files/{file_id}`.
- The `processed_files` table with its column defaults.

The row count depends on two pieces of Python that the handler calls, so both are modelled as well:

- strict UTF-8 decoding;
- `csv.reader` over `io.StringIO` with the default "excel" dialect.

Modules:

- `Wrappers` (wrappers.dfy): `Option`, `Result`, `Outcome`.
- `Utf8` (utf8.dfy): bytes, encoding and strict decoding. Table 3-7 of the Unicode Standard defines the well-formed sequences.
- `CsvReader` (csv_reader.dfy): the line splitting of `io.StringIO` and the character state machine of the `csv` module, for the excel dialect and the default field size limit of 131072.
- `CsvWriter` (csv_writer.dfy): a reference writer in the style of section 2 of RFC 4180, with "\r\n" or '\n' line endings. It is not part of the application; the reader splits its output back. The round-trip lemmas show that the reader splits every rendered table whose fields fit the field size limit (`Fits`) back into its rows.
- `RowCounter` (row_counter.dfy): the row count of `upload_csv`.
- `Models` (models.py's `ProcessedFile`, in models.dfy): statuses, rows, column defaults and the NOT NULL columns.
- `MetadataStore` (metadata_store.dfy): the table as an immutable value. It offers insert, status update, lookup by key and the listing newest first.
- `StorageKeys` (storage_keys.dfy): object keys made of a UUID text, a '/' and the file name.
- `App` (app.dfy): the three handlers, as pure functions.

Three inputs of the handler become parameters:

- the object-store write, as `put: Outcome<string>` (`Pass`, or `Fail(message)` carrying the exception's text);
- the UUID, as `token`;
- the clock, as `now`.

`Upload` returns the new table and the response. It also returns the handler's effects in order: the commit of the "processing" row, the write of the object, then the commit of the final status.

## Model

| member | source | states |
|---|---|---|
| Utf8.DecodeEncode | apps/csv-uploader/main.py:51 | Decoding the UTF-8 encoding of any text gives the text back. |
| Utf8.EncodeDecode | apps/csv-uploader/main.py:51 | Strict decoding accepts only well-formed UTF-8: any byte string that decodes is exactly the encoding of its text. |
| CsvReader.Lines | apps/csv-uploader/main.py:52 | The lines of `io.StringIO` join back to the text, are non-empty, and end with '\n', except the last. No line holds a '\n' anywhere else. |
| CsvReader.LineEventsOfLines | apps/csv-uploader/main.py:52 | Feeding the reader line by line, with an end-of-line mark after each line, is the same as feeding every character with a mark after each '\n' and one more mark after an unterminated last line. |
| CsvReader.SplitRecords | apps/csv-uploader/main.py:52-53 | Empty text gives no records. A non-empty text that parses gives at least one record. No field is longer than the field size limit. |
| CsvReader.RunBounded | apps/csv-uploader/main.py:52 | No run of the reader lets a field grow past the field size limit. |
| CsvWriter.SplitFormatTable | apps/csv-uploader/main.py:52 | A table of rows within the size limit, one record per line and each line ended by '\n' or by "\r\n", is split back into exactly those rows. This covers quoted fields holding ',', '"' or line breaks, and empty lines. |
| CsvWriter.SplitFormatTableUnterminated | apps/csv-uploader/main.py:52 | The same holds, with either line ending, when the last record has no line ending. |
| RowCounter.CountRows | apps/csv-uploader/main.py:50-57 | Bytes that are not UTF-8 count 0. A text the reader rejects counts 0, even when records came before the error. Otherwise the count is the number of records minus one, never negative. |
| RowCounter.CountTable | apps/csv-uploader/main.py:53-55 | An encoded table of n records whose fields are within the size limit, with '\n' or "\r\n" line endings, counts n - 1. An empty table counts 0. |
| RowCounter.CountTableUnterminated | apps/csv-uploader/main.py:53-55 | An encoded table of n records, with either line ending, followed by one more record without a line ending, counts n when every field is within the size limit. |
| RowCounter.CountHeaderOnly | apps/csv-uploader/main.py:53-55 | A header line alone counts 0, whether it ends in '\n', in "\r\n" or in nothing. |
| RowCounter.CountEmpty | apps/csv-uploader/main.py:53-55 | An empty upload counts 0. |
| RowCounter.CountInvalidUtf8 | apps/csv-uploader/main.py:56-57 | Content whose first byte starts no UTF-8 sequence (a continuation byte 0x80-0xBF, an overlong lead 0xC0 or 0xC1, or 0xF5-0xFF) counts 0. |
| RowCounter.CountNewlineInUnquotedField | apps/csv-uploader/main.py:52-57 | In "h\nx\ry", a character follows a lone '\r' on the same line, so the reader raises. The count is 0 although the record "h" was complete. |
| RowCounter.CountSample | apps/csv-uploader/tests/test_main.py:101-108 | The test upload "col1,col2\nval1,val2\nval3,val4" counts 2. |
| StorageKeys.StorageKey | apps/csv-uploader/main.py:48 | The key is the token, then '/', then the file name, so it ends with the file name. |
| StorageKeys.SplitStorageKey | apps/csv-uploader/main.py:48 | Splitting a key at its first '/' gives a slash-free token and a name that rebuild the key. |
| StorageKeys.SplitOfStorageKey | apps/csv-uploader/main.py:48 | Splitting a key made from a slash-free token gives back the token and the file name. |
| StorageKeys.StorageKeyInjective | apps/csv-uploader/main.py:48 | For slash-free tokens, two keys are equal exactly when their tokens and file names are. |
| StorageKeys.DistinctTokensDistinctKeys | apps/csv-uploader/main.py:48 | Two different UUID texts never give the same key, whatever the file names. |
| Models.Status.Name | apps/csv-uploader/models.py:16 | Each status is stored under its name ("processing", "completed" or "failed"), and that name reads back as the same status, so the three names are distinct. |
| Models.ParseIsName | apps/csv-uploader/models.py:16 | A stored text reads back as a given status exactly when it is that status's name. |
| Models.Materialize | apps/csv-uploader/models.py:8-16 | A row is created exactly when `filename` and `s3_key` are given. A missing column is refused as a NOT NULL error naming it. The row carries the assigned key and the given name and key. |
| Models.Defaults | apps/csv-uploader/models.py:13-16 | A row made from the required columns alone has row_count 0, status "processing" and the insert time as uploaded_at. |
| Models.GivenOverridesDefault | apps/csv-uploader/models.py:13-16 | A value given for row_count, status or uploaded_at replaces the default. |
| MetadataStore.Insert | apps/csv-uploader/main.py:59-67 | An insert succeeds exactly when the required columns are given. It appends the materialized row under the next key and advances the counter. |
| MetadataStore.InsertValid | apps/csv-uploader/models.py:11 | An insert keeps the primary keys positive and distinct, and the new key was not in use. |
| MetadataStore.Find | apps/csv-uploader/main.py:115 | The lookup finds nothing exactly when no row has the key; otherwise it finds a stored row with that key. |
| MetadataStore.FindUnique | apps/csv-uploader/models.py:11 | In a valid table the lookup of a row's key returns that very row. |
| MetadataStore.UpdateStatus | apps/csv-uploader/main.py:71-72 | The row with the key gets the new status. Every other row, and the counter, is unchanged. |
| MetadataStore.UpdateOnlyStatus | apps/csv-uploader/main.py:71-72 | A status update changes no column but `status`. |
| MetadataStore.UpdateIdempotent | apps/csv-uploader/main.py:85-86 | Setting the same status twice is the same as once. |
| MetadataStore.UpdateThenFind | apps/csv-uploader/main.py:71-72 | After an update the table stays valid, and a lookup returns the row with the new status. |
| MetadataStore.List | apps/csv-uploader/main.py:99 | The listing holds every row exactly once (a permutation of the table), ordered by uploaded_at, newest first. |
| MetadataStore.ListOfChronological | apps/csv-uploader/main.py:99 | For rows inserted in time order, the listing is the insertion order reversed. Rows with equal times follow the tie order admitted for `MetadataStore.List` under "## Left out". |
| App.GateAcceptsExactly | apps/csv-uploader/main.py:44 | The gate lets a name through exactly when it is some stem followed by ".csv". The comparison is case-sensitive. |
| App.Summary | apps/csv-uploader/main.py:45-91 | A rejection carries the detail "Only CSV files are allowed", a success the status "success" and a failed write the status "error". |
| App.StatusCode | apps/csv-uploader/main.py:44-94 | A rejection is 400, a success 200 and a failed write 500. |
| App.Upload | apps/csv-uploader/main.py:42-94 | A name without ".csv" is rejected with the table untouched and no effect. Otherwise there are three effects, in order: (1) a row is committed with the next key, the name, the insert time, the key token/name, the row count of the bytes and status "processing"; (2) the bytes are written under that key; (3) the final table is committed. In the final table that row has status "completed" or "failed" according to the write. The response is success with key, name and count, or error with the message only. |
| App.UploadWellFormed | apps/csv-uploader/models.py:11-15 | Uploads keep primary keys valid and row counts non-negative. An accepted upload's id was not in use before. |
| App.UploadOnlyStatusChanges | apps/csv-uploader/main.py:59-86 | Between the commit of the new row and the end of the request only `status` changes, and rows that were there before are untouched. |
| App.UploadSettles | apps/csv-uploader/main.py:69-86 | An accepted upload's row is never left "processing". It is "completed" exactly when the write succeeded. |
| App.UploadChronological | apps/csv-uploader/models.py:13 | With a clock that never goes back, the table stays in time order. |
| App.ToJson | apps/csv-uploader/main.py:100-108 | The status text returned by the endpoints reads back as the row's status. |
| App.ListFiles | apps/csv-uploader/main.py:97-110 | `GET /files` returns every row exactly once (the entries are a permutation of the rows' JSON), newest first. Every row appears, and every entry is some row's. |
| App.ListFilesChronological | apps/csv-uploader/main.py:99 | For a table filled in time order, `GET /files` is the rows in reverse insertion order. Rows with equal times follow the tie order admitted for `MetadataStore.List` under "## Left out". |
| App.GetFile | apps/csv-uploader/main.py:113-125 | `GET /files/{file_id}` is 404 "File not found" exactly when no row has that key. Otherwise it is that row. |
| App.GetAfterUpload | apps/csv-uploader/main.py:113-125 | After an accepted upload, the new id returns the row with its name, time, key, row count and settled status. |
| App.ListEmpty | apps/csv-uploader/tests/test_main.py:74-78 | A fresh table lists nothing. |
| App.GetMissing | apps/csv-uploader/tests/test_main.py:80-83 | Id 999 in a fresh table is 404. |
| App.RejectText | apps/csv-uploader/tests/test_main.py:89-94 | "test.txt" is rejected with 400 and the detail "Only CSV files are allowed", which contains "CSV", and the table is unchanged. |
| App.UploadSample | apps/csv-uploader/tests/test_main.py:96-108 | "test.csv" with the sample content and a successful write gives 200, status "success", file 1, row count 2. |
| App.UploadWriteFails | apps/csv-uploader/main.py:84-94 | In a fresh table, a failed write of an empty "test.csv" gives 500 with status "error" and the error text. The row is kept as "failed", and a lookup shows "failed". `Upload` and `GetAfterUpload` state the general case. |

## Left out

- `apps/csv-uploader/s3_client.py` (boto3, bucket checks, `put_object`): the write is the `put` parameter of `Upload`.
- `apps/csv-uploader/config.py`: reading the environment. It has no effect on the pipeline.
- The startup hook (`main.py:19-33`): bucket provisioning and logging, which are I/O.
- The HTML index page (`main.py:36-39`): presentation only. Its query is the same as the listing's.
- UUID generation: the token is a parameter. `StorageKeys.IsUuidText` describes its shape.
- The clock behind `uploaded_at`: the insert time is the parameter `now`.
- `isoformat()` of the timestamps: the endpoints return the stored timestamp value.
- The SQLAlchemy session: `commit`, `refresh`, connection handling and transaction failures. The insert in the pipeline always names both required columns, so it cannot be refused.
- A failing commit of the final status is not modelled. In the handler (`main.py:69-94`), the commit after a successful write (`main.py:72`) is inside the `try`. If it raises, the `except` branch sets "failed", commits again and returns the 500 error body, although the object was already written. If that second commit (`main.py:86`) also raises, the exception escapes the handler and the row stays "processing". `Upload` assumes both commits succeed.
- The constant "message" field of the success body ("File uploaded successfully") is not carried in `UploadResponse`.
- Exceptions other than the reader's two errors inside the counting `try` (`main.py:50-57`), such as running out of memory: the count would also be 0, but they are not modelled. The read of the upload (`main.py:47`) comes before that `try`, so a failing read escapes the handler. Interrupts such as `KeyboardInterrupt` are not `Exception`s and escape as well. Neither is modelled.
- Python versions before 3.11 raise on a NUL character inside CSV text. The model follows 3.11 and later, where NUL is an ordinary character.
- MetadataStore.List: rows with equal `uploaded_at` are returned later-inserted first. SQL leaves their order open, so this is one admissible order, not the only one.
- MetadataStore.UpdateStatus: an update of a missing id changes no row. The handler only updates the row it has just inserted.
- Upload: the listing and status properties assume a table with distinct primary keys (`Valid`). That condition is proved to be kept by every upload.
- RowCounter.CountRows: the width of the INTEGER column is not modelled. Python's integers and Dafny's are unbounded.
- The handler builds the storage key before it counts rows (`main.py:48-53`). `Upload` computes both as pure values, so their order is not observable.
- Models.Status: the `status` column is a free text column (`models.py:16`). The model types it as three constructors, so "only processing, completed and failed are ever written" holds by construction rather than by proof. The handler writes only those three literals (`main.py:63`, `main.py:71`, `main.py:85`).

=== FILE: app.dfy ===
/**
 * The HTTP handlers of the service: `POST /upload`, `GET /files` and
 * `GET /files/{file_id}`. The object-store write, the UUID and the clock
 * are parameters: `put` is the outcome `upload_file` would have, `token`
 * is the text of the fresh UUID, `now` is the time the row is inserted.
 */
module App {
  import opened Wrappers
  import opened Utf8
  import opened Models
  import opened MetadataStore
  import opened StorageKeys
  import opened RowCounter

  // ---------------------------------------------------------------------
  // The extension gate

  const CsvSuffix := ".csv"

  predicate EndsWith(s: string, suffix: string) {
    |s| >= |suffix| && s[|s| - |suffix|..] == suffix
  }

  /** The names the gate lets through are exactly those made of some stem and ".csv" (compared case-sensitively). */
  lemma GateAcceptsExactly(filename: string)
    ensures EndsWith(filename, CsvSuffix) <==> exists stem :: stem + CsvSuffix == filename
  {
    if EndsWith(filename, CsvSuffix) {
      var stem := filename[..|filename| - 4];
      assert stem + CsvSuffix == filename;
    }
    forall stem | stem + CsvSuffix == filename ensures EndsWith(filename, CsvSuffix) {
      assert filename[|filename| - 4..] == CsvSuffix;
    }
  }

  // ---------------------------------------------------------------------
  // Upload

  /** What the caller of `POST /upload` receives. */
  datatype UploadResponse =
    | Rejected                                               // 400, detail "Only CSV files are allowed"
    | Uploaded(fileId: nat, filename: string, rowCount: nat) // 200, status "success"
    | UploadFailed(message: string)                          // 500, status "error", the exception's text

  function StatusCode(r: UploadResponse): (code: int)
    ensures code == 400 <==> r.Rejected?
    ensures code == 200 <==> r.Uploaded?
    ensures code == 500 <==> r.UploadFailed?
  {
    match r
    case Rejected => 400
    case Uploaded(_, _, _) => 200
    case UploadFailed(_) => 500
  }

  /** The `detail` of a rejection, the `status` field of the other two bodies. */
  function Summary(r: UploadResponse): (s: string)
    ensures r.Rejected? ==> s == "Only CSV files are allowed"
    ensures r.Uploaded? ==> s == "success"
    ensures r.UploadFailed? ==> s == "error"
  {
    match r
    case Rejected => "Only CSV files are allowed"
    case Uploaded(_, _, _) => "success"
    case UploadFailed(_) => "error"
  }

  /** An observable step of the handler, in order: a commit of the table, or the write of the object. */
  datatype Effect = Committed(files: seq<ProcessedFile>) | Put(key: string, body: seq<Byte>)

  /** The table after the request, the response, and the handler's effects in the order they happen. */
  datatype UploadRun = UploadRun(store: Store, response: UploadResponse, effects: seq<Effect>)

  /** The status the row ends in after the object-store write. */
  function Settled(put: Outcome<string>): Status {
    if put.Pass? then Completed else Failed
  }

  /**
   * `upload_csv`. A name without the ".csv" suffix is refused before
   * anything is read or written. Otherwise the row is inserted as
   * "processing" with its key and row count and committed, the bytes are
   * written under the key, and the row's status is committed as
   * "completed" or "failed" according to that write.
   */
  function Upload(st: Store, filename: string, content: seq<Byte>, token: string, now: Timestamp, put: Outcome<string>): (run: UploadRun)
    ensures run.response.Rejected? <==> !EndsWith(filename, CsvSuffix)
    ensures run.response.Rejected? ==> run.store == st && run.effects == []
    ensures !run.response.Rejected? ==>
      var key := StorageKey(token, filename);
      var row := ProcessedFile(st.nextId, filename, now, key, CountRows(content), Processing);
      && |run.effects| == 3
      && run.effects[0] == Committed(st.files + [row])
      && run.effects[1] == Put(key, content)
      && run.effects[2] == Committed(run.store.files)
      && run.store.nextId == st.nextId + 1
      && (Valid(st) ==> run.store.files == st.files + [row.(status := Settled(put))])
      && run.response == match put
                         case Pass => Uploaded(st.nextId, filename, CountRows(content))
                         case Fail(message) => UploadFailed(message)
  {
    if !EndsWith(filename, CsvSuffix) then
      UploadRun(st, Rejected, [])
    else
      var key := StorageKey(token, filename);
      var rowCount := CountRows(content);
      var draft := NewFile(Some(filename), Some(key), Some(rowCount), Some(Processing), None);
      var (inserted, row) := Insert(st, draft, now).value;
      var settled := UpdateStatus(inserted, row.id, Settled(put));
      var response := match put
        case Pass => Uploaded(row.id, filename, rowCount)
        case Fail(message) => UploadFailed(message);
      assert Valid(st) ==> settled.files == st.files + [row.(status := Settled(put))] by {
        if Valid(st) {
          assert forall i :: 0 <= i < |st.files| ==> st.files[i].id != row.id;
        }
      }
      UploadRun(settled, response, [Committed(inserted.files), Put(key, content), Committed(settled.files)])
  }

  /** Every row of a table the handler keeps: valid keys and a row count that is never negative. */
  ghost predicate WellFormed(st: Store) {
    Valid(st) && forall i :: 0 <= i < |st.files| ==> st.files[i].rowCount >= 0
  }

  /** An upload, accepted or not, keeps the table well formed, and an accepted one uses a key not in use before. */
  lemma UploadWellFormed(st: Store, filename: string, content: seq<Byte>, token: string, now: Timestamp, put: Outcome<string>)
    requires WellFormed(st)
    ensures WellFormed(Upload(st, filename, content, token, now, put).store)
    ensures Upload(st, filename, content, token, now, put).response.Uploaded? ==>
              !HasId(st, Upload(st, filename, content, token, now, put).response.fileId)
  {
  }

  /** After the insert only the status changes: each row committed before the write is in the final table with at most its status changed. */
  lemma UploadOnlyStatusChanges(st: Store, filename: string, content: seq<Byte>, token: string, now: Timestamp, put: Outcome<string>)
    requires Valid(st) && EndsWith(filename, CsvSuffix)
    ensures
      var run := Upload(st, filename, content, token, now, put);
      var before := run.effects[0].files;
      && |before| == |run.store.files|
      && (forall i :: 0 <= i < |before| ==> SameButStatus(before[i], run.store.files[i]))
      && (forall i :: 0 <= i < |st.files| ==> run.store.files[i] == st.files[i])
  {
  }

  /** The row of an accepted upload is never left "processing": it ends "completed" exactly when the write succeeded. */
  lemma UploadSettles(st: Store, filename: string, content: seq<Byte>, token: string, now: Timestamp, put: Outcome<string>)
    requires Valid(st) && EndsWith(filename, CsvSuffix)
    ensures
      var run := Upload(st, filename, content, token, now, put);
      var row := Find(run.store, st.nextId);
      && row.Some?
      && row.value.status != Processing
      && (row.value.status == Completed <==> put.Pass?)
  {
    var run := Upload(st, filename, content, token, now, put);
    InsertValid(st, NewFile(Some(filename), Some(StorageKey(token, filename)), Some(CountRows(content)), Some(Processing), None), now);
    assert Valid(run.store);
    assert run.store.files[|st.files|].id == st.nextId;
    FindUnique(run.store, |st.files|);
  }

  /** Rows uploaded with a clock that never goes back stay in time order. */
  lemma UploadChronological(st: Store, filename: string, content: seq<Byte>, token: string, now: Timestamp, put: Outcome<string>)
    requires Valid(st) && Chronological(st.files)
    requires forall i :: 0 <= i < |st.files| ==> st.files[i].uploadedAt <= now
    ensures Chronological(Upload(st, filename, content, token, now, put).store.files)
  {
  }

  // ---------------------------------------------------------------------
  // Listing and lookup

  /** One row as the JSON endpoints return it; the status is its stored text. */
  datatype FileJson = FileJson(id: nat, filename: string, uploadedAt: Timestamp, s3Key: string, rowCount: int, status: string)

  function ToJson(f: ProcessedFile): (j: FileJson)
    ensures ParseStatus(j.status) == Some(f.status)
  {
    FileJson(f.id, f.filename, f.uploadedAt, f.s3Key, f.rowCount, f.status.Name())
  }

  function MapToJson(fs: seq<ProcessedFile>): (r: seq<FileJson>)
    ensures |r| == |fs|
    ensures forall i :: 0 <= i < |fs| ==> r[i] == ToJson(fs[i])
  {
    if fs == [] then [] else [ToJson(fs[0])] + MapToJson(fs[1..])
  }

  lemma MapToJsonMembers(fs: seq<ProcessedFile>)
    ensures forall f :: f in fs ==> ToJson(f) in MapToJson(fs)
  {
    forall f | f in fs ensures ToJson(f) in MapToJson(fs) {
      var k :| 0 <= k < |fs| && fs[k] == f;
      assert MapToJson(fs)[k] == ToJson(f);
    }
  }

  lemma MapToJsonAppend(a: seq<ProcessedFile>, b: seq<ProcessedFile>)
    ensures MapToJson(a + b) == MapToJson(a) + MapToJson(b)
  {
  }

  /** Taking the row at `k` out of a sequence takes its rendering out of the rendered sequence. */
  lemma MapToJsonRemove(b: seq<ProcessedFile>, k: nat)
    requires k < |b|
    ensures multiset(MapToJson(b)) == multiset(MapToJson(Without(b, k))) + multiset{ToJson(b[k])}
  {
    SplitAt(b, k);
    MapToJsonSplit(b[..k], b[k], b[k + 1..]);
  }

  lemma MapToJsonSplit(p: seq<ProcessedFile>, x: ProcessedFile, q: seq<ProcessedFile>)
    ensures multiset(MapToJson(p + [x] + q)) == multiset(MapToJson(p + q)) + multiset{ToJson(x)}
  {
    MapToJsonAppend(p + [x], q);
    MapToJsonAppend(p, [x]);
    MapToJsonAppend(p, q);
    assert MapToJson([x]) == [ToJson(x)];
  }

  /** Rendering permuted rows gives the rendered rows permuted. */
  lemma {:induction false} MapToJsonPermutes(a: seq<ProcessedFile>, b: seq<ProcessedFile>)
    requires multiset(a) == multiset(b)
    ensures multiset(MapToJson(a)) == multiset(MapToJson(b))
  {
    if a == [] {
      assert |b| == |multiset(b)| == 0;
    } else {
      assert a[0] in multiset(b);
      var k :| 0 <= k < |b| && b[k] == a[0];
      MapToJsonRemove(a, 0);
      MapToJsonRemove(b, k);
      MapToJsonPermutes(Without(a, 0), Without(b, k));
      AddSame(multiset(MapToJson(Without(a, 0))), multiset(MapToJson(Without(b, k))), ToJson(a[0]));
    }
  }

  /** The rendered listing: newest first, each row present and nothing else. */
  lemma ListedJson(st: Store)
    ensures var r := MapToJson(List(st));
      && |r| == |st.files|
      && (forall i, j :: 0 <= i < j < |r| ==> r[i].uploadedAt >= r[j].uploadedAt)
      && (forall f :: f in st.files ==> ToJson(f) in r)
      && (forall i :: 0 <= i < |r| ==> exists f :: f in st.files && r[i] == ToJson(f))
  {
    var sorted := List(st);
    ListMembers(st);
    MapToJsonMembers(sorted);
  }

  /** `GET /files`: every row exactly once, newest first. */
  function ListFiles(st: Store): (r: seq<FileJson>)
    ensures |r| == |st.files|
    ensures multiset(r) == multiset(MapToJson(st.files))
    ensures forall i, j :: 0 <= i < j < |r| ==> r[i].uploadedAt >= r[j].uploadedAt
    ensures forall f :: f in st.files ==> ToJson(f) in r
    ensures forall i :: 0 <= i < |r| ==> exists f :: f in st.files && r[i] == ToJson(f)
  {
    ListedJson(st);
    MapToJsonPermutes(List(st), st.files);
    MapToJson(List(st))
  }

  /** When the table was filled in time order, the listing is the insertion order reversed. */
  lemma ListFilesChronological(st: Store)
    requires Chronological(st.files)
    ensures ListFiles(st) == MapToJson(Reverse(st.files))
  {
    ListOfChronological(st.files);
  }

  /** The error of a handler that raises `HTTPException`. */
  datatype HttpError = HttpError(code: int, detail: string)

  /** `GET /files/{file_id}`: the row with that key, or 404 "File not found". */
  function GetFile(st: Store, fileId: int): (r: Result<FileJson, HttpError>)
    ensures r.Err? <==> !HasId(st, fileId)
    ensures r.Err? ==> r.error == HttpError(404, "File not found")
    ensures r.Ok? ==> r.value.id == fileId && exists f :: f in st.files && f.id == fileId && r.value == ToJson(f)
  {
    match Find(st, fileId)
    case None => Err(HttpError(404, "File not found"))
    case Some(f) => Ok(ToJson(f))
  }

  /** After an accepted upload, looking the new row up returns it with its settled status, its key and its row count. */
  lemma GetAfterUpload(st: Store, filename: string, content: seq<Byte>, token: string, now: Timestamp, put: Outcome<string>)
    requires Valid(st) && EndsWith(filename, CsvSuffix)
    ensures GetFile(Upload(st, filename, content, token, now, put).store, st.nextId)
         == Ok(FileJson(st.nextId, filename, now, StorageKey(token, filename), CountRows(content), Settled(put).Name()))
  {
    UploadSettles(st, filename, content, token, now, put);
  }

  // ---------------------------------------------------------------------
  // The handler's tests, as statements about the model

  /** A fresh table lists nothing. */
  lemma ListEmpty()
    ensures ListFiles(Empty) == []
  {
  }

  /** A missing id is answered with 404. */
  lemma GetMissing()
    ensures GetFile(Empty, 999) == Err(HttpError(404, "File not found"))
  {
  }

  /** Whether `part` occurs in `s` starting at position `k`. */
  predicate OccursAt(s: string, part: string, k: int) {
    0 <= k <= |s| - |part| && s[k..k + |part|] == part
  }

  /** Whether `part` occurs somewhere in `s`, as Python's `in` on strings tests it. */
  predicate Contains(s: string, part: string) {
    exists k :: 0 <= k <= |s| - |part| && OccursAt(s, part, k)
  }

  /** "test.txt" is refused with 400 and a detail that mentions CSV, and the table is untouched. */
  lemma RejectText(st: Store, content: seq<Byte>, token: string, now: Timestamp, put: Outcome<string>)
    ensures var run := Upload(st, "test.txt", content, token, now, put);
      && StatusCode(run.response) == 400
      && Summary(run.response) == "Only CSV files are allowed"
      && Contains(Summary(run.response), "CSV")
      && run.store == st
  {
    assert "test.txt"[4..] != CsvSuffix;
    assert OccursAt("Only CSV files are allowed", "CSV", 5);
  }

  lemma TestCsvAccepted()
    ensures EndsWith("test.csv", CsvSuffix)
  {
    assert "test.csv"[4..] == CsvSuffix;
  }

  /** "test.csv" with a header and two data lines, written successfully into a fresh table, is file 1 with 2 rows. */
  lemma UploadSample(token: string, now: Timestamp)
    ensures var run := Upload(Empty, "test.csv", Encode("col1,col2\nval1,val2\nval3,val4"), token, now, Pass);
      && StatusCode(run.response) == 200
      && Summary(run.response) == "success"
      && run.response == Uploaded(1, "test.csv", 2)
  {
    CountSample();
    TestCsvAccepted();
    UploadCsvName(Empty, "test.csv", Encode("col1,col2\nval1,val2\nval3,val4"), token, now);
  }

  /** A ".csv" upload whose write succeeds is answered with the next key, the name and the row count. */
  lemma UploadCsvName(st: Store, filename: string, content: seq<Byte>, token: string, now: Timestamp)
    requires EndsWith(filename, CsvSuffix)
    ensures Upload(st, filename, content, token, now, Pass).response == Uploaded(st.nextId, filename, CountRows(content))
  {
  }

  /** In a fresh table, a failed write of an empty "test.csv" answers 500 with the error text alone, the row is kept, and a lookup shows it "failed". */
  lemma UploadWriteFails(token: string, now: Timestamp, message: string)
    ensures var run := Upload(Empty, "test.csv", [], token, now, Fail(message));
      && StatusCode(run.response) == 500
      && Summary(run.response) == "error"
      && run.response == UploadFailed(message)
      && run.store.files == [ProcessedFile(1, "test.csv", now, StorageKey(token, "test.csv"), 0, Failed)]
      && GetFile(run.store, 1).Ok? && GetFile(run.store, 1).value.status == "failed"
  {
    CountEmpty();
    TestCsvAccepted();
    EmptyValid();
    GetAfterUpload(Empty, "test.csv", [], token, now, Fail(message));
  }
}

=== FILE: csv_reader.dfy ===
/**
 * The record splitter behind `csv.reader(io.StringIO(text))` with the
 * default "excel" dialect: delimiter ',', quote character '"', a doubled
 * quote inside a quoted field stands for one quote, no escape character,
 * no skipping of initial spaces, non-strict mode, and the default field
 * size limit of 128 * 1024 characters.
 *
 * The reader is fed line by line: `io.StringIO` with its default newline
 * setting ends a line only after '\n' (a lone '\r' does not end a line),
 * and after the characters of each line the reader sees an end-of-line
 * mark. A record is complete when, after such a mark, the machine is back
 * in its start state; a quoted field therefore may span several lines.
 */
module CsvReader {
  import opened Wrappers

  /** The default `csv.field_size_limit()`: no field may grow past it. */
  const FieldLimit: nat := 128 * 1024

  /** One parsed record: its fields in order. An empty line parses as the empty record. */
  type Row = seq<string>

  /** The concatenation of a sequence of texts. */
  function Concat(ls: seq<string>): string {
    if ls == [] then [] else ls[0] + Concat(ls[1..])
  }

  /** Length of the first line of `t`: up to and including the first '\n', or all of `t`. */
  function LineLength(t: string): (n: nat)
    requires t != []
    ensures 1 <= n <= |t|
    ensures t[n - 1] == '\n' || n == |t|
    ensures forall i :: 0 <= i < n - 1 ==> t[i] != '\n'
  {
    if t[0] == '\n' || |t| == 1 then 1 else 1 + LineLength(t[1..])
  }

  /**
   * The lines that iterating over `io.StringIO(t)` yields. They are
   * non-empty, they join back to `t`, each but the last ends with '\n',
   * and no line holds a '\n' anywhere else.
   */
  function Lines(t: string): (ls: seq<string>)
    ensures Concat(ls) == t
    ensures forall i :: 0 <= i < |ls| ==> ls[i] != []
    ensures forall i :: 0 <= i < |ls| - 1 ==> ls[i][|ls[i]| - 1] == '\n'
    ensures forall i, j :: 0 <= i < |ls| && 0 <= j < |ls[i]| - 1 ==> ls[i][j] != '\n'
    decreases |t|
  {
    if t == [] then []
    else
      var n := LineLength(t);
      assert t == t[..n] + t[n..];
      [t[..n]] + Lines(t[n..])
  }

  /** What the parser is fed: one character, or the mark at the end of a line. */
  datatype Event = Char(c: char) | Eol

  predicate IsLineBreak(c: char) {
    c == '\n' || c == '\r'
  }

  /** An event that ends an unquoted field and its record: a line break character or the end-of-line mark. */
  predicate EndsRecord(e: Event) {
    e.Eol? || IsLineBreak(e.c)
  }

  /** The characters of one line as events. */
  function CharEvents(s: string): (es: seq<Event>)
    ensures |es| == |s|
    ensures forall i :: 0 <= i < |s| ==> es[i] == Char(s[i])
  {
    if s == [] then [] else [Char(s[0])] + CharEvents(s[1..])
  }

  /** The events the line loop produces: each line's characters, then an end-of-line mark. */
  function LineEvents(ls: seq<string>): seq<Event> {
    if ls == [] then [] else CharEvents(ls[0]) + [Eol] + LineEvents(ls[1..])
  }

  /**
   * The same events described without lines: every character of `t`,
   * with an end-of-line mark right after each '\n'.
   */
  function Feed(t: string): seq<Event> {
    if t == [] then []
    else if t[0] == '\n' then [Char('\n'), Eol] + Feed(t[1..])
    else [Char(t[0])] + Feed(t[1..])
  }

  /** The whole event stream of `t`: `Feed(t)`, plus a final mark when the last line has no '\n'. */
  function Events(t: string): seq<Event> {
    Feed(t) + (if Unterminated(t) then [Eol] else [])
  }

  /** The states of the reader's character machine (the excel dialect never enters the escape states). */
  datatype State = StartRecord | StartField | InField | InQuotedField | QuoteInQuotedField | EatCrnl

  /** The two ways `csv.reader` can fail on text under the excel dialect. */
  datatype CsvError =
    | FieldTooLarge          // a field would grow past FieldLimit
    | NewlineInUnquotedField // a character follows a line break inside one line

  /** The reader: its state, the field being built, the fields of the current record, the records so far. */
  datatype Reader = Reader(state: State, field: string, fields: Row, records: seq<Row>)

  const Start := Reader(StartRecord, [], [], [])

  /** Ends the current field and appends it to the record under construction. */
  function SaveField(p: Reader): Reader {
    p.(field := [], fields := p.fields + [p.field])
  }

  /** Appends a character to the current field, failing once the field has reached the limit. */
  function AddChar(p: Reader, c: char): (r: Result<Reader, CsvError>)
    ensures r.Ok? <==> |p.field| < FieldLimit
    ensures r.Ok? ==> r.value == p.(field := p.field + [c])
  {
    if |p.field| >= FieldLimit then Err(FieldTooLarge) else Ok(p.(field := p.field + [c]))
  }

  /** The start-of-field rule for a character. */
  function BeginField(p: Reader, c: char): Result<Reader, CsvError> {
    if IsLineBreak(c) then Ok(SaveField(p).(state := EatCrnl))
    else if c == '"' then Ok(p.(state := InQuotedField))
    else if c == ',' then Ok(SaveField(p).(state := StartField))
    else
      var q :- AddChar(p, c);
      Ok(q.(state := InField))
  }

  /** Saves the field that an end-of-line event or a line break character closes. */
  function EndField(p: Reader, e: Event): Reader {
    SaveField(p).(state := if e.Eol? then StartRecord else EatCrnl)
  }

  /** One transition of the character machine. */
  function Transition(p: Reader, e: Event): Result<Reader, CsvError> {
    match p.state
    case StartRecord =>
      if e.Eol? then Ok(p)
      else if IsLineBreak(e.c) then Ok(p.(state := EatCrnl))
      else BeginField(p.(state := StartField), e.c)
    case StartField =>
      if e.Eol? then Ok(EndField(p, e))
      else BeginField(p, e.c)
    case InField =>
      if EndsRecord(e) then Ok(EndField(p, e))
      else if e.c == ',' then Ok(SaveField(p).(state := StartField))
      else AddChar(p, e.c)
    case InQuotedField =>
      if e.Eol? then Ok(p)
      else if e.c == '"' then Ok(p.(state := QuoteInQuotedField))
      else AddChar(p, e.c)
    case QuoteInQuotedField =>
      if e == Char('"') then
        var q :- AddChar(p, '"');
        Ok(q.(state := InQuotedField))
      else if e == Char(',') then Ok(SaveField(p).(state := StartField))
      else if EndsRecord(e) then Ok(EndField(p, e))
      else
        var q :- AddChar(p, e.c);
        Ok(q.(state := InField))
    case EatCrnl =>
      if e.Eol? then Ok(p.(state := StartRecord))
      else if IsLineBreak(e.c) then Ok(p)
      else Err(NewlineInUnquotedField)
  }

  /** A transition, followed by the line loop's check: back in the start state after a line means a record is complete. */
  function Step(p: Reader, e: Event): Result<Reader, CsvError> {
    var q :- Transition(p, e);
    if e.Eol? && q.state == StartRecord then Ok(q.(fields := [], records := q.records + [q.fields]))
    else Ok(q)
  }

  /** Feeds a sequence of events; the first error aborts the whole iteration. */
  function Run(p: Reader, es: seq<Event>): Result<Reader, CsvError>
    decreases |es|
  {
    if es == [] then Ok(p)
    else
      var q :- Step(p, es[0]);
      Run(q, es[1..])
  }

  /** Continues a run that may already have failed. */
  function Continue(r: Result<Reader, CsvError>, es: seq<Event>): Result<Reader, CsvError> {
    match r
    case Ok(q) => Run(q, es)
    case Err(e) => Err(e)
  }

  /** End of input: a field still open (non-empty, or inside quotes) is saved and its record returned. */
  function Finish(p: Reader): seq<Row> {
    if p.field != [] || p.state == InQuotedField then p.records + [p.fields + [p.field]]
    else p.records
  }

  /** The records `csv.reader(io.StringIO(text))` yields, or the error it raises. */
  function SplitRecords(text: string): (r: Result<seq<Row>, CsvError>)
    ensures text == [] ==> r == Ok([])
    ensures r.Ok? && text != [] ==> |r.value| >= 1
    ensures r.Ok? ==> forall i, j :: 0 <= i < |r.value| && 0 <= j < |r.value[i]| ==> |r.value[i][j]| <= FieldLimit
  {
    LineEventsOfLines(text);
    FinishFacts(text);
    var p :- Run(Start, LineEvents(Lines(text)));
    Ok(Finish(p))
  }

  /** When the run over the events of a text succeeds, splitting the text returns what `Finish` makes of it. */
  lemma SplitOfEvents(text: string, q: Reader)
    requires Run(Start, Events(text)) == Ok(q)
    ensures SplitRecords(text) == Ok(Finish(q))
  {
    LineEventsOfLines(text);
  }

  /** When the run over the events of a text fails, splitting the text fails with the same error. */
  lemma SplitFailure(text: string, e: CsvError)
    requires Run(Start, Events(text)) == Err(e)
    ensures SplitRecords(text) == Err(e)
  {
    LineEventsOfLines(text);
  }

  /** Every record `Finish` returns after a run over a whole text keeps its fields within the limit, and a non-empty text gives at least one record. */
  lemma FinishFacts(text: string)
    ensures Run(Start, Events(text)).Ok? ==>
      var recs := Finish(Run(Start, Events(text)).value);
      && (text != [] ==> |recs| >= 1)
      && forall i, j :: 0 <= i < |recs| && 0 <= j < |recs[i]| ==> |recs[i][j]| <= FieldLimit
  {
    RunBounded(Start, Events(text));
    TextReachesRecord(text);
  }

  // ---------------------------------------------------------------------
  // Lemmas about the event stream

  /** Feeding two texts one after the other feeds their concatenation. */
  lemma {:induction false} FeedAppend(a: string, b: string)
    ensures Feed(a + b) == Feed(a) + Feed(b)
  {
    if a == [] {
      assert a + b == b;
    } else {
      var ab := a + b;
      assert ab[0] == a[0];
      assert ab[1..] == a[1..] + b;
      FeedAppend(a[1..], b);
      var head := if a[0] == '\n' then [Char('\n'), Eol] else [Char(a[0])];
      assert Feed(ab) == head + Feed(ab[1..]);
      assert Feed(a) == head + Feed(a[1..]);
    }
  }

  /** A text without '\n' is fed as its characters. */
  lemma {:induction false} FeedWithoutNewline(s: string)
    requires forall i :: 0 <= i < |s| ==> s[i] != '\n'
    ensures Feed(s) == CharEvents(s)
  {
    if s != [] {
      FeedWithoutNewline(s[1..]);
    }
  }

  /** A line that ends with its only '\n' is fed as its characters followed by the end-of-line mark. */
  lemma FeedOfLine(body: string)
    requires forall i :: 0 <= i < |body| ==> body[i] != '\n'
    ensures Feed(body + "\n") == CharEvents(body + "\n") + [Eol]
  {
    assert Feed(body + "\n") == Feed(body) + Feed("\n") by {
      FeedAppend(body, "\n");
    }
    assert Feed(body) == CharEvents(body) by {
      FeedWithoutNewline(body);
    }
    assert Feed("\n") == [Char('\n'), Eol];
    CharEventsOfLine(body);
    assert CharEvents(body) + [Char('\n'), Eol] == CharEvents(body) + [Char('\n')] + [Eol];
  }

  lemma CharEventsOfLine(body: string)
    ensures CharEvents(body + "\n") == CharEvents(body) + [Char('\n')]
  {
  }

  /** Whether a text needs a final end-of-line mark: it is non-empty and does not end with '\n'. */
  predicate Unterminated(t: string) {
    t != [] && t[|t| - 1] != '\n'
  }

  /** A complete line in front of a text does not change whether the text is terminated. */
  lemma UnterminatedAfterLine(line: string, rest: string)
    requires line != [] && line[|line| - 1] == '\n'
    ensures Unterminated(line + rest) == Unterminated(rest)
  {
    var t := line + rest;
    if rest == [] {
      assert t == line;
    } else {
      assert t[|t| - 1] == rest[|rest| - 1];
    }
  }

  /** The events of a text that starts with a complete line are that line's, then the rest's. */
  lemma EventsAfterLine(line: string, rest: string)
    requires line != [] && line[|line| - 1] == '\n'
    ensures Events(line + rest) == Feed(line) + Events(rest)
  {
    FeedAppend(line, rest);
    UnterminatedAfterLine(line, rest);
  }

  /** The events of the first line of `t`, then those of the rest, are the events of `t`. */
  lemma EventsOfFirstLine(t: string)
    requires t != []
    ensures CharEvents(t[..LineLength(t)]) + [Eol] + Events(t[LineLength(t)..]) == Events(t)
  {
    var n := LineLength(t);
    var line, rest := t[..n], t[n..];
    assert t == line + rest;
    if t[n - 1] == '\n' {
      var body := line[..n - 1];
      assert line == body + "\n";
      FeedOfLine(body);
      EventsAfterLine(line, rest);
    } else {
      assert line == t;
      FeedWithoutNewline(line);
    }
  }

  /** The line loop and the line-free description produce the same events. */
  lemma {:induction false} LineEventsOfLines(t: string)
    ensures LineEvents(Lines(t)) == Events(t)
    decreases |t|
  {
    if t != [] {
      var n := LineLength(t);
      assert LineEvents(Lines(t)) == CharEvents(t[..n]) + [Eol] + LineEvents(Lines(t[n..]));
      LineEventsOfLines(t[n..]);
      EventsOfFirstLine(t);
    }
  }

  // ---------------------------------------------------------------------
  // Lemmas about runs

  /** A run over two event sequences is the run over the first continued with the second. */
  lemma {:induction false} RunAppend(p: Reader, a: seq<Event>, b: seq<Event>)
    ensures Run(p, a + b) == Continue(Run(p, a), b)
    decreases |a|
  {
    if a == [] {
      assert a + b == b;
    } else {
      var ab := a + b;
      assert ab[0] == a[0];
      assert ab[1..] == a[1..] + b;
      match Step(p, a[0])
      case Err(e) =>
        assert Run(p, ab) == Err(e);
      case Ok(q) =>
        assert Run(p, ab) == Run(q, a[1..] + b);
        assert Run(p, a) == Run(q, a[1..]);
        RunAppend(q, a[1..], b);
    }
  }

  /** A run whose first part is known to end in `q` goes on from `q`. */
  lemma RunThen(p: Reader, a: seq<Event>, b: seq<Event>, q: Reader)
    requires Run(p, a) == Ok(q)
    ensures Run(p, a + b) == Run(q, b)
  {
    RunAppend(p, a, b);
  }

  /** A run over an event and more events is the step over the event continued with the rest. */
  lemma RunCons(p: Reader, e: Event, es: seq<Event>)
    ensures Run(p, [e] + es) == Continue(Step(p, e), es)
  {
    assert ([e] + es)[0] == e;
    assert ([e] + es)[1..] == es;
  }

  /** Every field the reader holds is within the limit. */
  ghost predicate Bounded(p: Reader) {
    && |p.field| <= FieldLimit
    && (forall j :: 0 <= j < |p.fields| ==> |p.fields[j]| <= FieldLimit)
    && (forall i, j :: 0 <= i < |p.records| && 0 <= j < |p.records[i]| ==> |p.records[i][j]| <= FieldLimit)
  }

  lemma StepBounded(p: Reader, e: Event)
    requires Bounded(p) && Step(p, e).Ok?
    ensures Bounded(Step(p, e).value)
  {
    SaveFieldBounded(p);
  }

  lemma SaveFieldBounded(p: Reader)
    requires Bounded(p)
    ensures Bounded(SaveField(p))
  {
  }

  /** No run lets a field grow past the limit. */
  lemma {:induction false} RunBounded(p: Reader, es: seq<Event>)
    requires Bounded(p)
    ensures Run(p, es).Ok? ==> Bounded(Run(p, es).value)
    decreases |es|
  {
    if es != [] && Step(p, es[0]).Ok? {
      StepBounded(p, es[0]);
      RunBounded(Step(p, es[0]).value, es[1..]);
    }
  }

  /** Records already returned are never taken back. */
  lemma {:induction false} RunKeepsRecords(p: Reader, es: seq<Event>)
    requires Run(p, es).Ok?
    ensures |Run(p, es).value.records| >= |p.records|
    decreases |es|
  {
    if es != [] {
      RunKeepsRecords(Step(p, es[0]).value, es[1..]);
    }
  }

  /**
   * After an end-of-line mark the reader has either completed a record
   * or is inside a quoted field, so a run ending in a mark leaves
   * something for `Finish` to return.
   */
  lemma {:induction false} RunReachesRecord(p: Reader, es: seq<Event>)
    requires es != [] && es[|es| - 1] == Eol
    requires Run(p, es).Ok?
    ensures |Finish(Run(p, es).value)| > |p.records|
  {
    var front := es[..|es| - 1];
    assert es == front + [Eol];
    RunAppend(p, front, [Eol]);
    var q := Run(p, front).value;
    RunKeepsRecords(p, front);
    assert Run(q, [Eol]) == Step(q, Eol);
  }

  /** The event stream of a non-empty text ends with an end-of-line mark, so it yields a record. */
  lemma TextReachesRecord(text: string)
    ensures text != [] && Run(Start, Events(text)).Ok? ==> |Finish(Run(Start, Events(text)).value)| >= 1
  {
    if text != [] && Run(Start, Events(text)).Ok? {
      var es := Events(text);
      if text[|text| - 1] == '\n' {
        var body := text[..|text| - 1];
        assert text == body + "\n";
        FeedAppend(body, "\n");
      }
      RunReachesRecord(Start, es);
    }
  }
}

=== FILE: csv_writer.dfy ===
/**
 * A reference writer for the reader in CsvReader: it renders rows as
 * section 2 of RFC 4180 describes them (fields separated by ',', a field
 * that holds ',', '"' or a line break enclosed in double quotes with
 * each inner '"' doubled), one record per line, each line ended by
 * "\r\n" as that section prescribes, or by '\n' alone. Empty fields are
 * quoted too, so that a record holding one empty field does not read
 * back as an empty line.
 *
 * The reader splits the writer's output back: every table it renders,
 * with fields within the reader's size limit, is split into exactly the
 * rows it was rendered from, with either line ending, and whether or not
 * the last line is terminated.
 */
module CsvWriter {
  import opened Wrappers
  import opened CsvReader

  /** A character with a meaning to the reader. */
  predicate IsSpecial(c: char) {
    c == ',' || c == '"' || c == '\n' || c == '\r'
  }

  /** A field that is written bare: non-empty and free of special characters. */
  predicate IsPlain(f: string) {
    f != [] && forall i :: 0 <= i < |f| ==> !IsSpecial(f[i])
  }

  /** Inside quotes a '"' is written twice. */
  function EscapeChar(c: char): string {
    if c == '"' then "\"\"" else [c]
  }

  function Escape(f: string): string {
    if f == [] then [] else EscapeChar(f[0]) + Escape(f[1..])
  }

  function FormatField(f: string): string {
    if IsPlain(f) then f else "\"" + Escape(f) + "\""
  }

  function FormatRecord(r: Row): string {
    if r == [] then []
    else if |r| == 1 then FormatField(r[0])
    else FormatField(r[0]) + "," + FormatRecord(r[1..])
  }

  /** The two line endings a table may be written with. */
  datatype LineEnd = Lf | CrLf {

    /** The characters that end a line. */
    function Text(): (t: string)
      ensures t != [] && t[|t| - 1] == '\n'
    {
      match this
      case Lf => "\n"
      case CrLf => "\r\n"
    }

    /** The events the reader receives for the line ending. */
    function Ending(): seq<Event> {
      match this
      case Lf => [Char('\n'), Eol]
      case CrLf => [Char('\r'), Char('\n'), Eol]
    }
  }

  /** Every record on a line of its own, each line ended by `nl`. */
  function FormatTable(rows: seq<Row>, nl: LineEnd): string {
    if rows == [] then [] else FormatRecord(rows[0]) + nl.Text() + FormatTable(rows[1..], nl)
  }

  /** No field is longer than the reader accepts. */
  predicate Fits(rows: seq<Row>) {
    forall i, j :: 0 <= i < |rows| && 0 <= j < |rows[i]| ==> |rows[i][j]| <= FieldLimit
  }

  predicate RecordFits(r: Row) {
    forall j :: 0 <= j < |r| ==> |r[j]| <= FieldLimit
  }

  /** The state the reader is in right after reading a formatted field. */
  function AfterField(f: string): State {
    if IsPlain(f) then InField else QuoteInQuotedField
  }

  // ---------------------------------------------------------------------
  // Reading back one field

  /** Inside quotes, the escaped form of a character appends exactly that character. */
  lemma QuotedChar(p: Reader, c: char)
    requires p.state == InQuotedField && |p.field| < FieldLimit
    ensures Run(p, Feed(EscapeChar(c))) == Ok(p.(field := p.field + [c]))
  {
    if c == '"' {
      assert Feed("\"") == [Char('"')];
      assert Feed("\"\"") == [Char('"')] + Feed("\"");
      var q := p.(state := QuoteInQuotedField);
      assert Step(p, Char('"')) == Ok(q);
      assert Run(p, [Char('"'), Char('"')]) == Run(q, [Char('"')]);
    } else if c == '\n' {
      assert Feed(EscapeChar(c)) == [Char('\n'), Eol];
      var q := p.(field := p.field + [c]);
      assert Step(p, Char('\n')) == Ok(q);
      assert Step(q, Eol) == Ok(q);
      assert Run(p, [Char('\n'), Eol]) == Run(q, [Eol]);
    } else {
      assert Feed(EscapeChar(c)) == [Char(c)];
    }
  }

  /** Inside quotes, an escaped text and the closing quote append the text and await what follows the quote. */
  lemma {:induction false} QuotedBody(p: Reader, s: string)
    requires p.state == InQuotedField && |p.field| + |s| <= FieldLimit
    ensures Run(p, Feed(Escape(s) + "\"")) == Ok(p.(state := QuoteInQuotedField, field := p.field + s))
    decreases |s|
  {
    if s == [] {
      assert Escape(s) + "\"" == "\"";
      CloseQuote(p);
      assert p.field + s == p.field;
    } else {
      var q := p.(field := p.field + [s[0]]);
      QuotedStep(p, s);
      QuotedBody(q, s[1..]);
      assert q.field + s[1..] == p.field + s;
    }
  }

  /** Inside quotes, the escaped first character of a text is read, and the rest of the text follows. */
  lemma QuotedStep(p: Reader, s: string)
    requires p.state == InQuotedField && |p.field| < FieldLimit && s != []
    ensures Run(p, Feed(Escape(s) + "\"")) == Run(p.(field := p.field + [s[0]]), Feed(Escape(s[1..]) + "\""))
  {
    var e, tail := EscapeChar(s[0]), Escape(s[1..]) + "\"";
    assert Escape(s) + "\"" == e + tail;
    FeedAppend(e, tail);
    QuotedChar(p, s[0]);
    RunThen(p, Feed(e), Feed(tail), p.(field := p.field + [s[0]]));
  }

  /** Inside quotes, a lone quote closes the quoted part of the field. */
  lemma CloseQuote(p: Reader)
    requires p.state == InQuotedField
    ensures Run(p, Feed("\"")) == Ok(p.(state := QuoteInQuotedField))
  {
    assert Feed("\"") == [Char('"')] + [];
    assert Step(p, Char('"')) == Ok(p.(state := QuoteInQuotedField));
    RunCons(p, Char('"'), []);
  }

  /** In an unquoted field, plain characters are appended one by one. */
  lemma {:induction false} BareBody(p: Reader, s: string)
    requires p.state == InField && |p.field| + |s| <= FieldLimit
    requires forall i :: 0 <= i < |s| ==> !IsSpecial(s[i])
    ensures Run(p, Feed(s)) == Ok(p.(field := p.field + s))
    decreases |s|
  {
    if s != [] {
      assert !IsSpecial(s[0]);
      assert Feed(s) == [Char(s[0])] + Feed(s[1..]);
      var q := p.(field := p.field + [s[0]]);
      assert Step(p, Char(s[0])) == Ok(q);
      RunCons(p, Char(s[0]), Feed(s[1..]));
      BareBody(q, s[1..]);
      assert q.field + s[1..] == p.field + s;
    } else {
      assert p.field + s == p.field;
    }
  }

  /** At the start of a field, a plain character opens an unquoted field. */
  lemma BeginBare(p: Reader, c: char)
    requires p.state == StartRecord || p.state == StartField
    requires !IsSpecial(c) && |p.field| < FieldLimit
    ensures Step(p, Char(c)) == Ok(p.(state := InField, field := p.field + [c]))
  {
  }

  /** At the start of a field, a quote opens a quoted field. */
  lemma BeginQuoted(p: Reader)
    requires p.state == StartRecord || p.state == StartField
    ensures Step(p, Char('"')) == Ok(p.(state := InQuotedField))
  {
  }

  /** At the start of a field, the formatted field is read back as the same text. */
  lemma ReadField(p: Reader, f: string)
    requires p.state == StartRecord || p.state == StartField
    requires p.field == [] && |f| <= FieldLimit
    ensures Run(p, Feed(FormatField(f))) == Ok(p.(state := AfterField(f), field := f))
  {
    if IsPlain(f) {
      assert !IsSpecial(f[0]);
      assert Feed(f) == [Char(f[0])] + Feed(f[1..]);
      BeginBare(p, f[0]);
      var q := p.(state := InField, field := [f[0]]);
      assert p.field + [f[0]] == [f[0]];
      RunCons(p, Char(f[0]), Feed(f[1..]));
      BareBody(q, f[1..]);
      assert [f[0]] + f[1..] == f;
    } else {
      var tail := Escape(f) + "\"";
      assert FormatField(f) == "\"" + tail;
      FeedAppend("\"", tail);
      assert Feed("\"") == [Char('"')];
      BeginQuoted(p);
      RunCons(p, Char('"'), Feed(tail));
      QuotedBody(p.(state := InQuotedField), f);
      assert p.field + f == f;
    }
  }

  // ---------------------------------------------------------------------
  // Reading back records and tables

  /** The events that end a record: a line ending and its end-of-line mark, or the mark alone at the end of the text. */
  predicate IsTerminator(term: seq<Event>) {
    term == Lf.Ending() || term == CrLf.Ending() || term == [Eol]
  }

  /** After a field, a terminator saves it and completes the record. */
  lemma EndRecord(p: Reader, term: seq<Event>)
    requires p.state == InField || p.state == QuoteInQuotedField
    requires IsTerminator(term)
    ensures Run(p, term) == Ok(Reader(StartRecord, [], [], p.records + [p.fields + [p.field]]))
  {
    var q := SaveField(p).(state := EatCrnl);
    if term == Lf.Ending() {
      assert Step(p, Char('\n')) == Ok(q);
      assert Run(p, term) == Run(q, [Eol]);
    } else if term == CrLf.Ending() {
      assert Step(p, Char('\r')) == Ok(q);
      assert Step(q, Char('\n')) == Ok(q);
      assert Run(p, term) == Run(q, [Char('\n'), Eol]);
      assert Run(q, [Char('\n'), Eol]) == Run(q, [Eol]);
    }
  }

  /** A formatted field and the delimiter after it save the field and start the next one. */
  lemma ReadFieldThenComma(p: Reader, f: string, es: seq<Event>)
    requires p.state == StartRecord || p.state == StartField
    requires p.field == [] && |f| <= FieldLimit
    ensures Run(p, Feed(FormatField(f) + ",") + es) == Run(p.(state := StartField, fields := p.fields + [f]), es)
  {
    var ff := FormatField(f);
    FeedAppend(ff, ",");
    assert Feed(",") == [Char(',')];
    assert Feed(ff + ",") + es == Feed(ff) + ([Char(',')] + es);
    RunAppend(p, Feed(ff), [Char(',')] + es);
    ReadField(p, f);
    var q := p.(state := AfterField(f), field := f);
    assert Step(q, Char(',')) == Ok(p.(state := StartField, fields := p.fields + [f]));
    RunCons(q, Char(','), es);
  }

  /** A formatted field and a terminator complete the record with that field as its last one. */
  lemma ReadLastField(p: Reader, f: string, term: seq<Event>)
    requires p.state == StartRecord || p.state == StartField
    requires p.field == [] && |f| <= FieldLimit && IsTerminator(term)
    ensures Run(p, Feed(FormatField(f)) + term) == Ok(Reader(StartRecord, [], [], p.records + [p.fields + [f]]))
  {
    RunAppend(p, Feed(FormatField(f)), term);
    ReadField(p, f);
    EndRecord(p.(state := AfterField(f), field := f), term);
  }

  /** A record of one field is read back. */
  lemma ReadOnlyField(p: Reader, r: Row, term: seq<Event>)
    requires p.state == StartRecord || p.state == StartField
    requires p.field == [] && |r| == 1 && |r[0]| <= FieldLimit && IsTerminator(term)
    ensures Run(p, Feed(FormatRecord(r)) + term) == Ok(Reader(StartRecord, [], [], p.records + [p.fields + r]))
  {
    assert FormatRecord(r) == FormatField(r[0]);
    ReadLastField(p, r[0], term);
    assert [r[0]] == r;
  }

  /** The first field of a record with more fields is read, and the rest of the record follows. */
  lemma ReadFirstField(p: Reader, r: Row, term: seq<Event>)
    requires p.state == StartRecord || p.state == StartField
    requires p.field == [] && |r| > 1 && |r[0]| <= FieldLimit
    ensures Run(p, Feed(FormatRecord(r)) + term)
         == Run(p.(state := StartField, fields := p.fields + [r[0]]), Feed(FormatRecord(r[1..])) + term)
  {
    var ff, rest := FormatField(r[0]), FormatRecord(r[1..]);
    assert Feed(FormatRecord(r)) + term == Feed(ff + ",") + (Feed(rest) + term) by {
      assert FormatRecord(r) == (ff + ",") + rest;
      FeedAppend(ff + ",", rest);
    }
    ReadFieldThenComma(p, r[0], Feed(rest) + term);
  }

  /** A formatted non-empty record and its terminator are read back as that record. */
  lemma {:induction false} ReadRecord(p: Reader, r: Row, term: seq<Event>)
    requires p.state == StartRecord || p.state == StartField
    requires p.field == [] && r != [] && RecordFits(r) && IsTerminator(term)
    ensures Run(p, Feed(FormatRecord(r)) + term) == Ok(Reader(StartRecord, [], [], p.records + [p.fields + r]))
    decreases |r|, 1
  {
    if |r| == 1 {
      ReadOnlyField(p, r, term);
    } else {
      ReadMoreFields(p, r, term);
    }
  }

  /** The inductive step of ReadRecord: the first field, then the rest of the record. */
  lemma {:induction false} ReadMoreFields(p: Reader, r: Row, term: seq<Event>)
    requires p.state == StartRecord || p.state == StartField
    requires p.field == [] && |r| > 1 && RecordFits(r) && IsTerminator(term)
    ensures Run(p, Feed(FormatRecord(r)) + term) == Ok(Reader(StartRecord, [], [], p.records + [p.fields + r]))
    decreases |r|, 0
  {
    var q := p.(state := StartField, fields := p.fields + [r[0]]);
    assert q.fields + r[1..] == p.fields + r;
    ReadFirstField(p, r, term);
    ReadRecord(q, r[1..], term);
  }

  /** An empty line is read back as the empty record. */
  lemma ReadEmptyRecord(p: Reader, nl: LineEnd)
    requires p.state == StartRecord && p.field == [] && p.fields == []
    ensures Run(p, nl.Ending()) == Ok(p.(records := p.records + [[]]))
  {
    var q := p.(state := EatCrnl);
    if nl.Lf? {
      assert Step(p, Char('\n')) == Ok(q);
      assert Run(p, nl.Ending()) == Run(q, [Eol]);
    } else {
      assert Step(p, Char('\r')) == Ok(q);
      assert Step(q, Char('\n')) == Ok(q);
      assert Run(p, nl.Ending()) == Run(q, [Char('\n'), Eol]);
      assert Run(q, [Char('\n'), Eol]) == Run(q, [Eol]);
    }
  }

  /** A line holding a formatted record is read back as that record, and the reader starts afresh. */
  lemma ReadLineEvents(p: Reader, row: Row, nl: LineEnd)
    requires p.state == StartRecord && p.field == [] && p.fields == [] && RecordFits(row)
    ensures Run(p, Feed(FormatRecord(row)) + nl.Ending()) == Ok(p.(records := p.records + [row]))
  {
    if row == [] {
      assert Feed(FormatRecord(row)) + nl.Ending() == nl.Ending();
      ReadEmptyRecord(p, nl);
    } else {
      ReadRecord(p, row, nl.Ending());
      assert p.fields + row == row;
    }
  }

  /** A line ending at the end of a text is fed as its characters and an end-of-line mark. */
  lemma FeedLine(s: string, nl: LineEnd)
    ensures Feed(s + nl.Text()) == Feed(s) + nl.Ending()
  {
    FeedAppend(s, nl.Text());
    if nl.CrLf? {
      assert Feed("\r\n") == [Char('\r')] + Feed("\n");
    }
    assert Feed("\n") == [Char('\n'), Eol];
  }

  /** A formatted record and its line ending, whatever follows, add the record and leave the reader at the start of the next. */
  lemma ReadLine(p: Reader, row: Row, nl: LineEnd, rest: seq<Event>)
    requires p.state == StartRecord && p.field == [] && p.fields == [] && RecordFits(row)
    ensures Run(p, Feed(FormatRecord(row) + nl.Text()) + rest) == Run(p.(records := p.records + [row]), rest)
  {
    var line := FormatRecord(row);
    FeedLine(line, nl);
    ReadLineEvents(p, row, nl);
    RunThen(p, Feed(line) + nl.Ending(), rest, p.(records := p.records + [row]));
  }

  lemma FitsHead(rows: seq<Row>)
    requires rows != [] && Fits(rows)
    ensures RecordFits(rows[0])
  {
  }

  lemma FitsTail(rows: seq<Row>)
    requires rows != [] && Fits(rows)
    ensures Fits(rows[1..])
  {
    forall i, j | 0 <= i < |rows[1..]| && 0 <= j < |rows[1..][i]| ensures |rows[1..][i][j]| <= FieldLimit {
      assert rows[1..][i] == rows[i + 1];
    }
  }

  /** The reader at the start of a record, having read `records`. */
  function AtRecord(records: seq<Row>): Reader {
    Reader(StartRecord, [], [], records)
  }

  /** The first line of a formatted table adds its record; the rest of the table follows. */
  lemma ReadTableStep(records: seq<Row>, rows: seq<Row>, nl: LineEnd)
    requires rows != [] && Fits(rows)
    ensures Run(AtRecord(records), Feed(FormatTable(rows, nl))) == Run(AtRecord(records + [rows[0]]), Feed(FormatTable(rows[1..], nl)))
  {
    var line, rest := FormatRecord(rows[0]) + nl.Text(), FormatTable(rows[1..], nl);
    assert Feed(FormatTable(rows, nl)) == Feed(line) + Feed(rest) by {
      assert FormatTable(rows, nl) == line + rest;
      FeedAppend(line, rest);
    }
    FitsHead(rows);
    ReadLine(AtRecord(records), rows[0], nl, Feed(rest));
  }

  lemma ReadEmptyTable(records: seq<Row>, nl: LineEnd)
    ensures Run(AtRecord(records), Feed(FormatTable([], nl))) == Ok(AtRecord(records + []))
  {
    assert Feed(FormatTable([], nl)) == [];
    assert records + [] == records;
  }

  lemma HeadThenTail(records: seq<Row>, rows: seq<Row>)
    requires rows != []
    ensures records + [rows[0]] + rows[1..] == records + rows
  {
  }

  /** A formatted table is read back, record by record, as its rows. */
  lemma {:induction false} ReadTable(records: seq<Row>, rows: seq<Row>, nl: LineEnd)
    requires Fits(rows)
    ensures Run(AtRecord(records), Feed(FormatTable(rows, nl))) == Ok(AtRecord(records + rows))
    decreases |rows|
  {
    if rows == [] {
      ReadEmptyTable(records, nl);
    } else {
      ReadTableStep(records, rows, nl);
      FitsTail(rows);
      ReadTable(records + [rows[0]], rows[1..], nl);
      HeadThenTail(records, rows);
    }
  }

  /** A formatted table is empty or ends with '\n'. */
  lemma {:induction false} FormatTableTerminated(rows: seq<Row>, nl: LineEnd)
    ensures !Unterminated(FormatTable(rows, nl))
  {
    if rows != [] {
      var t := FormatTable(rows, nl);
      var line, rest := FormatRecord(rows[0]) + nl.Text(), FormatTable(rows[1..], nl);
      assert t == line + rest;
      FormatTableTerminated(rows[1..], nl);
      if rest != [] {
        assert t[|t| - 1] == rest[|rest| - 1];
      } else {
        assert t[|t| - 1] == line[|line| - 1] == nl.Text()[|nl.Text()| - 1];
      }
    }
  }

  /** A formatted non-empty record is non-empty and does not end with '\n'. */
  lemma {:induction false} FormatRecordUnterminated(r: Row)
    requires r != []
    ensures Unterminated(FormatRecord(r))
    decreases |r|
  {
    var ff := FormatField(r[0]);
    assert ff != [] && ff[|ff| - 1] != '\n' by {
      if !IsPlain(r[0]) {
        assert ff == ("\"" + Escape(r[0])) + "\"";
      }
    }
    if |r| > 1 {
      FormatRecordUnterminated(r[1..]);
      var t := FormatRecord(r);
      var rest := FormatRecord(r[1..]);
      assert t == (ff + ",") + rest;
      assert t[|t| - 1] == rest[|rest| - 1];
    }
  }

  /** Splitting a formatted table, with either line ending, gives back its rows. */
  lemma SplitFormatTable(rows: seq<Row>, nl: LineEnd)
    requires Fits(rows)
    ensures SplitRecords(FormatTable(rows, nl)) == Ok(rows)
  {
    var text := FormatTable(rows, nl);
    FormatTableTerminated(rows, nl);
    assert Events(text) == Feed(text) + [];
    assert Events(text) == Feed(text);
    ReadTable([], rows, nl);
    var q := AtRecord(rows);
    assert [] + rows == rows;
    SplitOfEvents(text, q);
  }

  /** Splitting a formatted table followed by one more record without its final '\n' gives back all the rows. */
  lemma SplitFormatTableUnterminated(rows: seq<Row>, nl: LineEnd, last: Row)
    requires Fits(rows) && last != [] && RecordFits(last)
    ensures SplitRecords(FormatTable(rows, nl) + FormatRecord(last)) == Ok(rows + [last])
  {
    var head, tail := FormatTable(rows, nl), FormatRecord(last);
    var text := head + tail;
    FormatRecordUnterminated(last);
    assert text[|text| - 1] == tail[|tail| - 1];
    FeedAppend(head, tail);
    assert Events(text) == Feed(head) + (Feed(tail) + [Eol]);
    ReadTable([], rows, nl);
    assert [] + rows == rows;
    var p := AtRecord(rows);
    RunThen(Start, Feed(head), Feed(tail) + [Eol], p);
    ReadRecord(p, last, [Eol]);
    var q := Reader(StartRecord, [], [], rows + [last]);
    assert p.fields + last == last;
    SplitOfEvents(text, q);
  }
}

=== FILE: metadata_store.dfy ===
/**
 * The `processed_files` table as the pipeline uses it: rows in insertion
 * order, a counter for the next primary key, insertion, a status update,
 * a lookup by primary key, and the listing ordered by `uploaded_at`,
 * newest first.
 */
module MetadataStore {
  import opened Wrappers
  import opened Models

  /** The rows in insertion order, and the primary key the next insert receives. */
  datatype Store = Store(files: seq<ProcessedFile>, nextId: nat)

  /** A fresh table: no rows, keys start at 1. */
  const Empty := Store([], 1)

  /** Primary keys are positive, below the counter and pairwise distinct. */
  ghost predicate Valid(st: Store) {
    && st.nextId >= 1
    && (forall i :: 0 <= i < |st.files| ==> 1 <= st.files[i].id < st.nextId)
    && (forall i, j :: 0 <= i < j < |st.files| ==> st.files[i].id != st.files[j].id)
  }

  /** Whether some row has primary key `id`. */
  predicate HasId(st: Store, id: int) {
    exists i :: 0 <= i < |st.files| && st.files[i].id == id
  }

  lemma EmptyValid()
    ensures Valid(Empty) && !HasId(Empty, 0)
  {
  }

  // ---------------------------------------------------------------------
  // Insert

  /**
   * `db.add` and `db.commit` of a new row: the row receives the next
   * primary key and is appended; a row missing a required column is
   * refused and the table is left as it was.
   */
  function Insert(st: Store, draft: NewFile, now: Timestamp): (r: Result<(Store, ProcessedFile), IntegrityError>)
    ensures r.Ok? <==> draft.filename.Some? && draft.s3Key.Some?
    ensures r.Ok? ==>
      var (st', f) := r.value;
      && f == Materialize(draft, st.nextId, now).value
      && st'.files == st.files + [f]
      && st'.nextId == st.nextId + 1
  {
    var f :- Materialize(draft, st.nextId, now);
    Ok((Store(st.files + [f], st.nextId + 1), f))
  }

  /** An insert keeps the keys distinct, and the new key was not in use before. */
  lemma InsertValid(st: Store, draft: NewFile, now: Timestamp)
    requires Valid(st) && Insert(st, draft, now).Ok?
    ensures Valid(Insert(st, draft, now).value.0)
    ensures !HasId(st, Insert(st, draft, now).value.1.id)
  {
  }

  // ---------------------------------------------------------------------
  // Lookup

  /** The first row with primary key `id`, as `filter(id == file_id).first()` returns it. */
  function Find(st: Store, id: int): (r: Option<ProcessedFile>)
    ensures r.None? <==> !HasId(st, id)
    ensures r.Some? ==> r.value.id == id && r.value in st.files
  {
    FindFrom(st.files, id, 0)
  }

  function FindFrom(files: seq<ProcessedFile>, id: int, k: nat): (r: Option<ProcessedFile>)
    requires k <= |files|
    ensures r.None? <==> forall i :: k <= i < |files| ==> files[i].id != id
    ensures r.Some? ==> exists i :: k <= i < |files| && files[i] == r.value && r.value.id == id
    decreases |files| - k
  {
    if k == |files| then None
    else if files[k].id == id then Some(files[k])
    else FindFrom(files, id, k + 1)
  }

  /** In a valid table the row found is the only row with that key. */
  lemma FindUnique(st: Store, i: nat)
    requires Valid(st) && i < |st.files|
    ensures Find(st, st.files[i].id) == Some(st.files[i])
  {
    var f := Find(st, st.files[i].id).value;
    var j :| 0 <= j < |st.files| && st.files[j] == f;
    assert st.files[j].id == st.files[i].id;
  }

  // ---------------------------------------------------------------------
  // Status update

  /** The row with primary key `id` gets status `s`; every other column and every other row stays as it was. */
  function UpdateStatus(st: Store, id: nat, s: Status): (r: Store)
    ensures r.nextId == st.nextId && |r.files| == |st.files|
    ensures forall i :: 0 <= i < |st.files| ==>
      r.files[i] == if st.files[i].id == id then st.files[i].(status := s) else st.files[i]
  {
    Store(SetStatus(st.files, id, s), st.nextId)
  }

  function SetStatus(files: seq<ProcessedFile>, id: nat, s: Status): (r: seq<ProcessedFile>)
    ensures |r| == |files|
    ensures forall i :: 0 <= i < |files| ==>
      r[i] == if files[i].id == id then files[i].(status := s) else files[i]
  {
    if files == [] then []
    else
      var f := files[0];
      [if f.id == id then f.(status := s) else f] + SetStatus(files[1..], id, s)
  }

  /** Two rows that differ at most in their status. */
  predicate SameButStatus(a: ProcessedFile, b: ProcessedFile) {
    a.(status := b.status) == b
  }

  /** A status update changes no column but `status`, and only in the row it names. */
  lemma UpdateOnlyStatus(st: Store, id: nat, s: Status)
    ensures forall i :: 0 <= i < |st.files| ==> SameButStatus(st.files[i], UpdateStatus(st, id, s).files[i])
    ensures forall i :: 0 <= i < |st.files| && st.files[i].id != id ==> UpdateStatus(st, id, s).files[i] == st.files[i]
  {
  }

  /** Updating to the same status twice is the same as once. */
  lemma UpdateIdempotent(st: Store, id: nat, s: Status)
    ensures UpdateStatus(UpdateStatus(st, id, s), id, s) == UpdateStatus(st, id, s)
  {
    var once := UpdateStatus(st, id, s);
    assert once.files == UpdateStatus(once, id, s).files;
  }

  /** After an update, a lookup of the row finds the new status, and the keys stay valid. */
  lemma UpdateThenFind(st: Store, i: nat, s: Status)
    requires Valid(st) && i < |st.files|
    ensures Valid(UpdateStatus(st, st.files[i].id, s))
    ensures Find(UpdateStatus(st, st.files[i].id, s), st.files[i].id) == Some(st.files[i].(status := s))
  {
    var st' := UpdateStatus(st, st.files[i].id, s);
    assert Valid(st');
    FindUnique(st', i);
  }

  // ---------------------------------------------------------------------
  // Listing, newest first

  /** Ordered by `uploaded_at`, descending. */
  predicate NewestFirst(s: seq<ProcessedFile>) {
    forall i, j :: 0 <= i < j < |s| ==> s[i].uploadedAt >= s[j].uploadedAt
  }

  /** Places `f` before the first row that is not newer than it. */
  function InsertByTime(f: ProcessedFile, s: seq<ProcessedFile>): (r: seq<ProcessedFile>)
    requires NewestFirst(s)
    ensures NewestFirst(r)
    ensures multiset(r) == multiset(s) + multiset{f}
  {
    if s == [] then [f]
    else if s[0].uploadedAt <= f.uploadedAt then
      assert NewestFirst([f] + s) by {
        forall i, j | 0 <= i < j < |[f] + s| ensures ([f] + s)[i].uploadedAt >= ([f] + s)[j].uploadedAt {
          if i > 0 {
            assert ([f] + s)[i] == s[i - 1];
          }
        }
      }
      [f] + s
    else
      var tail := InsertByTime(f, s[1..]);
      assert s == [s[0]] + s[1..];
      NotNewerThanHead(s, f, tail);
      [s[0]] + tail
  }

  /** The rest of a list, with a row older than its head inserted, can follow that head. */
  lemma NotNewerThanHead(s: seq<ProcessedFile>, f: ProcessedFile, tail: seq<ProcessedFile>)
    requires s != [] && NewestFirst(s) && NewestFirst(tail)
    requires f.uploadedAt < s[0].uploadedAt
    requires multiset(tail) == multiset(s[1..]) + multiset{f}
    ensures NewestFirst([s[0]] + tail)
  {
    forall k | 0 <= k < |tail| ensures tail[k].uploadedAt <= s[0].uploadedAt {
      assert tail[k] in multiset(tail);
      if tail[k] != f {
        assert tail[k] in multiset(s[1..]);
        var m :| 0 <= m < |s[1..]| && s[1..][m] == tail[k];
        assert s[m + 1] == tail[k];
      }
    }
    var r := [s[0]] + tail;
    forall i, j | 0 <= i < j < |r| ensures r[i].uploadedAt >= r[j].uploadedAt {
      assert r[j] == tail[j - 1];
      if i > 0 {
        assert r[i] == tail[i - 1];
      }
    }
  }

  /**
   * The rows of `files` newest first. Rows with equal timestamps come
   * later-inserted first; SQL leaves their order open, so this is one of
   * the orders the database may return.
   */
  function SortNewestFirst(files: seq<ProcessedFile>): (r: seq<ProcessedFile>)
    ensures NewestFirst(r)
    ensures multiset(r) == multiset(files)
  {
    if files == [] then []
    else
      var front := files[..|files| - 1];
      assert files == front + [files[|files| - 1]];
      InsertByTime(files[|files| - 1], SortNewestFirst(front))
  }

  /** `order_by(uploaded_at.desc()).all()`: every row once, newest first. */
  function List(st: Store): (r: seq<ProcessedFile>)
    ensures NewestFirst(r)
    ensures multiset(r) == multiset(st.files)
    ensures |r| == |st.files|
  {
    var r := SortNewestFirst(st.files);
    assert |r| == |multiset(r)| == |multiset(st.files)| == |st.files|;
    r
  }

  /** Rows inserted in time order. */
  predicate Chronological(files: seq<ProcessedFile>) {
    forall i, j :: 0 <= i < j < |files| ==> files[i].uploadedAt <= files[j].uploadedAt
  }

  function Reverse<T>(s: seq<T>): (r: seq<T>)
    ensures |r| == |s|
    ensures forall i :: 0 <= i < |s| ==> r[i] == s[|s| - 1 - i]
  {
    if s == [] then [] else Reverse(s[1..]) + [s[0]]
  }

  /** When rows were inserted in time order, the listing is exactly the insertion order reversed. */
  lemma {:induction false} ListOfChronological(files: seq<ProcessedFile>)
    requires Chronological(files)
    ensures SortNewestFirst(files) == Reverse(files)
  {
    if files != [] {
      var n := |files|;
      var front, last := files[..n - 1], files[n - 1];
      assert files == front + [last];
      ChronologicalFront(files);
      ListOfChronological(front);
      InsertNewest(last, Reverse(front));
      ReverseSnoc(front, last);
    }
  }

  lemma ChronologicalFront(files: seq<ProcessedFile>)
    requires files != [] && Chronological(files)
    ensures Chronological(files[..|files| - 1])
    ensures NewestFirst(Reverse(files[..|files| - 1]))
    ensures forall i :: 0 <= i < |files| - 1 ==> files[i].uploadedAt <= files[|files| - 1].uploadedAt
  {
  }

  /** A row not older than the head of a listing goes in front of it. */
  lemma InsertNewest(f: ProcessedFile, s: seq<ProcessedFile>)
    requires NewestFirst(s)
    requires forall i :: 0 <= i < |s| ==> s[i].uploadedAt <= f.uploadedAt
    ensures InsertByTime(f, s) == [f] + s
  {
    if s != [] {
      assert s[0].uploadedAt <= f.uploadedAt;
    }
  }

  /** A row is listed exactly when it is stored. */
  lemma ListMembers(st: Store)
    ensures forall f :: f in List(st) <==> f in st.files
  {
    var r := List(st);
    forall f ensures f in r <==> f in st.files {
      assert f in r <==> f in multiset(r);
      assert f in st.files <==> f in multiset(st.files);
    }
  }

  /** `b` with its element at `k` taken out. */
  function Without<T>(b: seq<T>, k: nat): (r: seq<T>)
    requires k < |b|
    ensures multiset(r) == multiset(b) - multiset{b[k]}
  {
    assert b == b[..k] + [b[k]] + b[k + 1..];
    b[..k] + b[k + 1..]
  }

  lemma AddSame<T>(x: multiset<T>, y: multiset<T>, e: T)
    requires x == y
    ensures x + multiset{e} == y + multiset{e}
  {
  }

  /** A sequence is its part before `k`, its element at `k` and its part after. */
  lemma SplitAt<T>(b: seq<T>, k: nat)
    requires k < |b|
    ensures b == b[..k] + [b[k]] + b[k + 1..] && Without(b, k) == b[..k] + b[k + 1..]
  {
  }

  lemma ReverseSnoc<T>(s: seq<T>, x: T)
    ensures Reverse(s + [x]) == [x] + Reverse(s)
  {
  }
}

=== FILE: models.dfy ===
/**
 * The `processed_files` table: one row per accepted upload, the values the
 * `status` column takes, and the defaults the ORM applies when a row is
 * created.
 */
module Models {
  import opened Wrappers

  /** A point in time as the database stores it: opaque, totally ordered. */
  type Timestamp = int

  /** The three values the pipeline ever writes into the `status` column. */
  datatype Status = Processing | Completed | Failed {

    /** The text stored in the column; it reads back as this status, so distinct statuses have distinct names. */
    function Name(): (s: string)
      ensures ParseStatus(s) == Some(this)
    {
      match this
      case Processing => "processing"
      case Completed => "completed"
      case Failed => "failed"
    }
  }

  /** Reads a status column back; any text other than the three names is not a status. */
  function ParseStatus(s: string): Option<Status> {
    if s == "processing" then Some(Processing)
    else if s == "completed" then Some(Completed)
    else if s == "failed" then Some(Failed)
    else None
  }

  /** A text reads back as a status exactly when it is that status's name. */
  lemma ParseIsName(s: string, st: Status)
    ensures ParseStatus(s) == Some(st) <==> st.Name() == s
  {
  }

  /** A stored row. `filename` and `s3Key` are never null: the type holds a text. */
  datatype ProcessedFile = ProcessedFile(
    id: nat,
    filename: string,
    uploadedAt: Timestamp,
    s3Key: string,
    rowCount: int,
    status: Status)

  /**
   * The arguments given to the ORM constructor: a column left out is
   * None. `id` is never given; the database assigns it.
   */
  datatype NewFile = NewFile(
    filename: Option<string>,
    s3Key: Option<string>,
    rowCount: Option<int>,
    status: Option<Status>,
    uploadedAt: Option<Timestamp>)

  /** A row the database refuses: a NOT NULL column left empty. */
  datatype IntegrityError = NotNull(column: string)

  /**
   * The row written for `draft` under primary key `id` at time `now`:
   * `row_count` defaults to 0, `status` to "processing", `uploaded_at` to
   * the time of the insert; a missing `filename` or `s3_key` is refused.
   */
  function Materialize(draft: NewFile, id: nat, now: Timestamp): (r: Result<ProcessedFile, IntegrityError>)
    ensures r.Ok? <==> draft.filename.Some? && draft.s3Key.Some?
    ensures draft.filename.None? ==> r == Err(NotNull("filename"))
    ensures draft.filename.Some? && draft.s3Key.None? ==> r == Err(NotNull("s3_key"))
    ensures r.Ok? ==> && r.value.id == id
                      && r.value.filename == draft.filename.value
                      && r.value.s3Key == draft.s3Key.value
  {
    match (draft.filename, draft.s3Key)
    case (None, _) => Err(NotNull("filename"))
    case (_, None) => Err(NotNull("s3_key"))
    case (Some(name), Some(key)) =>
      Ok(ProcessedFile(
        id := id,
        filename := name,
        uploadedAt := draft.uploadedAt.GetOr(now),
        s3Key := key,
        rowCount := draft.rowCount.GetOr(0),
        status := draft.status.GetOr(Processing)))
  }

  /** The draft that names only the two required columns. */
  function Required(filename: string, s3Key: string): NewFile {
    NewFile(Some(filename), Some(s3Key), None, None, None)
  }

  /** A row created from the required columns alone counts 0 rows, is "processing", and is stamped with the insert time. */
  lemma Defaults(filename: string, s3Key: string, id: nat, now: Timestamp)
    ensures Materialize(Required(filename, s3Key), id, now)
         == Ok(ProcessedFile(id, filename, now, s3Key, 0, Processing))
  {
  }

  /** A value given for a defaulted column overrides the default. */
  lemma GivenOverridesDefault(draft: NewFile, id: nat, now: Timestamp)
    requires draft.filename.Some? && draft.s3Key.Some?
    ensures draft.rowCount.Some? ==> Materialize(draft, id, now).value.rowCount == draft.rowCount.value
    ensures draft.status.Some? ==> Materialize(draft, id, now).value.status == draft.status.value
    ensures draft.uploadedAt.Some? ==> Materialize(draft, id, now).value.uploadedAt == draft.uploadedAt.value
  {
  }
}

=== FILE: row_counter.dfy ===
/**
 * The row count the upload handler stores: the uploaded bytes are decoded
 * as strict UTF-8, split into CSV records, and the first record is taken
 * to be the header. Any failure along the way is swallowed and gives 0.
 */
module RowCounter {
  import opened Wrappers
  import opened Utf8
  import opened CsvReader
  import opened CsvWriter

  /** The number of records of `content` after its header, or 0 when it cannot be decoded or parsed. */
  function CountRows(content: seq<Byte>): (n: nat)
    ensures Decode(content).None? ==> n == 0
    ensures Decode(content).Some? && SplitRecords(Decode(content).value).Err? ==> n == 0
    ensures Decode(content).Some? && SplitRecords(Decode(content).value).Ok? ==>
      var records := SplitRecords(Decode(content).value).value;
      (n == 0 && |records| <= 1) || n + 1 == |records|
  {
    match Decode(content)
    case None => 0
    case Some(text) =>
      match SplitRecords(text)
      case Err(_) => 0
      case Ok(records) => if |records| - 1 < 0 then 0 else |records| - 1
  }

  /** The encoding of a text that splits into `records` counts every record but the first. */
  lemma CountOfText(text: string, records: seq<Row>)
    requires SplitRecords(text) == Ok(records)
    ensures CountRows(Encode(text)) == if records == [] then 0 else |records| - 1
  {
    DecodeEncode(text);
  }

  /** A table rendered one record per line, with '\n' or "\r\n" line endings, and encoded counts every record but the header. */
  lemma CountTable(rows: seq<Row>, nl: LineEnd)
    requires Fits(rows)
    ensures CountRows(Encode(FormatTable(rows, nl))) == if rows == [] then 0 else |rows| - 1
  {
    SplitFormatTable(rows, nl);
    CountOfText(FormatTable(rows, nl), rows);
  }

  /** The same holds when the last line of the upload has no line ending. */
  lemma CountTableUnterminated(rows: seq<Row>, nl: LineEnd, last: Row)
    requires Fits(rows) && last != [] && RecordFits(last)
    ensures CountRows(Encode(FormatTable(rows, nl) + FormatRecord(last))) == |rows|
  {
    SplitFormatTableUnterminated(rows, nl, last);
    CountOfText(FormatTable(rows, nl) + FormatRecord(last), rows + [last]);
  }

  /** An empty upload has no rows. */
  lemma CountEmpty()
    ensures CountRows([]) == 0
  {
    assert Decode([]) == Some([]);
  }

  /** A header line alone has no rows after it. */
  lemma CountHeaderOnly(header: Row, nl: LineEnd)
    requires RecordFits(header)
    ensures CountRows(Encode(FormatTable([header], nl))) == 0
    ensures header != [] ==> CountRows(Encode(FormatRecord(header))) == 0
  {
    CountTable([header], nl);
    if header != [] {
      CountTableUnterminated([], nl, header);
      assert FormatTable([], nl) + FormatRecord(header) == FormatRecord(header);
    }
  }

  /** A first byte that starts no UTF-8 sequence (a continuation byte, an overlong lead C0/C1, or F5-FF) makes the upload undecodable, and the count 0. */
  lemma CountInvalidUtf8(content: seq<Byte>)
    requires content != [] && (0x80 <= content[0] < 0xC2 || content[0] >= 0xF5)
    ensures CountRows(content) == 0
  {
  }

  /** A character after a lone '\r' on the same line is a parse error, and the count is 0 although a record was complete before it. */
  lemma CountNewlineInUnquotedField()
    ensures SplitRecords("h\nx\ry") == Err(NewlineInUnquotedField)
    ensures CountRows(Encode("h\nx\ry")) == 0
  {
    var t := "h\nx\ry";
    assert Feed(t) == [Char('h'), Char('\n'), Eol, Char('x'), Char('\r'), Char('y')];
    assert Unterminated(t);
    var e4 := [Char('y'), Eol];
    var e3 := [Char('\r')] + e4;
    var e2 := [Char('x')] + e3;
    var e1 := [Char('\n'), Eol] + e2;
    assert Events(t) == [Char('h')] + e1;
    var p1 := Reader(InField, "h", [], []);
    var p2 := Reader(StartRecord, [], [], [["h"]]);
    var p3 := Reader(InField, "x", [], [["h"]]);
    var p4 := Reader(EatCrnl, [], ["x"], [["h"]]);
    assert Run(p4, e4) == Err(NewlineInUnquotedField);
    assert p3.fields + [p3.field] == ["x"];
    assert Step(p3, Char('\r')) == Ok(p4);
    RunCons(p3, Char('\r'), e4);
    BeginBare(p2, 'x');
    assert p2.field + ['x'] == "x";
    RunCons(p2, Char('x'), e3);
    EndRecord(p1, [Char('\n'), Eol]);
    assert p1.fields + [p1.field] == ["h"];
    assert p1.records + [p1.fields + [p1.field]] == [["h"]];
    RunThen(p1, [Char('\n'), Eol], e2, p2);
    BeginBare(Start, 'h');
    assert Start.field + ['h'] == "h";
    RunCons(Start, Char('h'), e1);
    SplitFailure(t, NewlineInUnquotedField);
    DecodeEncode(t);
  }

  /** The upload of the handler's own test: a header and two data lines, the last without '\n', count 2. */
  lemma CountSample()
    ensures CountRows(Encode("col1,col2\nval1,val2\nval3,val4")) == 2
  {
    var rows: seq<Row> := [["col1", "col2"], ["val1", "val2"]];
    var last: Row := ["val3", "val4"];
    PlainWords();
    assert FormatRecord(["col2"]) == "col2";
    assert FormatRecord(["val2"]) == "val2";
    assert FormatRecord(["val4"]) == "val4";
    assert FormatRecord(rows[0]) == "col1,col2";
    assert FormatRecord(rows[1]) == "val1,val2";
    assert FormatRecord(last) == "val3,val4";
    assert FormatTable(rows[1..], Lf) == "val1,val2\n";
    assert FormatTable(rows, Lf) == "col1,col2\nval1,val2\n";
    assert FormatTable(rows, Lf) + FormatRecord(last) == "col1,col2\nval1,val2\nval3,val4";
    CountTableUnterminated(rows, Lf, last);
  }

  lemma PlainWords()
    ensures IsPlain("col1") && IsPlain("col2") && IsPlain("val1") && IsPlain("val2") && IsPlain("val3") && IsPlain("val4")
  {
  }
}

=== FILE: storage_keys.dfy ===
/**
 * Object keys in the bucket: the text of a fresh UUID, a '/', then the
 * uploaded file's name. The UUID text is an input to the model; it is
 * never generated here.
 */
module StorageKeys {
  import opened Wrappers

  predicate IsHexDigit(c: char) {
    ('0' <= c <= '9') || ('a' <= c <= 'f')
  }

  /** The canonical text of a UUID, as `str(uuid.uuid4())` prints it: 8-4-4-4-12 lower-case hex digits. */
  predicate IsUuidText(t: string) {
    && |t| == 36
    && forall i :: 0 <= i < 36 ==>
         if i == 8 || i == 13 || i == 18 || i == 23 then t[i] == '-' else IsHexDigit(t[i])
  }

  /** Texts usable as the first part of a key: they hold no '/'. */
  predicate NoSlash(t: string) {
    forall i :: 0 <= i < |t| ==> t[i] != '/'
  }

  lemma UuidHasNoSlash(t: string)
    requires IsUuidText(t)
    ensures NoSlash(t)
  {
    forall i | 0 <= i < |t| ensures t[i] != '/' {
      assert if i == 8 || i == 13 || i == 18 || i == 23 then t[i] == '-' else IsHexDigit(t[i]);
    }
  }

  /** The key an upload is stored under. */
  function StorageKey(token: string, filename: string): (key: string)
    ensures |key| == |token| + 1 + |filename|
    ensures key[..|token|] == token && key[|token|] == '/'
    ensures key[|token| + 1..] == filename
  {
    token + "/" + filename
  }

  /** The position of the first '/' in `key`, if any. */
  function FirstSlash(key: string): (r: Option<nat>)
    ensures r.Some? ==> r.value < |key| && key[r.value] == '/' && NoSlash(key[..r.value])
    ensures r.None? ==> NoSlash(key)
  {
    if key == [] then None
    else if key[0] == '/' then Some(0)
    else
      match FirstSlash(key[1..])
      case None => None
      case Some(n) =>
        assert key[..n + 1] == [key[0]] + key[1..][..n];
        Some(n + 1)
  }

  /** Splits a key at its first '/' into the token and the file name; a key without '/' was not made by StorageKey. */
  function SplitStorageKey(key: string): (r: Option<(string, string)>)
    ensures r.Some? ==> NoSlash(r.value.0) && StorageKey(r.value.0, r.value.1) == key
    ensures r.None? ==> NoSlash(key)
  {
    match FirstSlash(key)
    case None => None
    case Some(n) =>
      assert key == key[..n] + "/" + key[n + 1..];
      Some((key[..n], key[n + 1..]))
  }

  /** Characters before a position that a slash-free prefix covers are not '/'. */
  lemma NoSlashBefore(key: string, n: nat)
    requires n <= |key| && NoSlash(key[..n])
    ensures forall i :: 0 <= i < n ==> key[i] != '/'
  {
    forall i | 0 <= i < n ensures key[i] != '/' {
      assert key[..n][i] == key[i];
    }
  }

  /** A '/' with no '/' before it is the first one. */
  lemma FirstSlashAt(key: string, n: nat)
    requires n < |key| && key[n] == '/' && NoSlash(key[..n])
    ensures FirstSlash(key) == Some(n)
  {
    assert !NoSlash(key);
    var m := FirstSlash(key).value;
    NoSlashBefore(key, n);
    NoSlashBefore(key, m);
  }

  /** The first '/' of a key made from a token without '/' is the one after the token. */
  lemma FirstSlashOfKey(token: string, filename: string)
    requires NoSlash(token)
    ensures FirstSlash(StorageKey(token, filename)) == Some(|token|)
  {
    FirstSlashAt(StorageKey(token, filename), |token|);
  }

  /** Splitting a key gives back the token and the file name it was made from. */
  lemma SplitOfStorageKey(token: string, filename: string)
    requires NoSlash(token)
    ensures SplitStorageKey(StorageKey(token, filename)) == Some((token, filename))
  {
    FirstSlashOfKey(token, filename);
  }

  /** Keys made from slash-free tokens are equal only when token and file name both are: distinct tokens never collide. */
  lemma StorageKeyInjective(t1: string, f1: string, t2: string, f2: string)
    requires NoSlash(t1) && NoSlash(t2)
    ensures StorageKey(t1, f1) == StorageKey(t2, f2) <==> t1 == t2 && f1 == f2
  {
    if StorageKey(t1, f1) == StorageKey(t2, f2) {
      SplitOfStorageKey(t1, f1);
      SplitOfStorageKey(t2, f2);
    }
  }

  /** Two UUID tokens that differ give different keys, whatever the file names. */
  lemma DistinctTokensDistinctKeys(t1: string, f1: string, t2: string, f2: string)
    requires IsUuidText(t1) && IsUuidText(t2) && t1 != t2
    ensures StorageKey(t1, f1) != StorageKey(t2, f2)
  {
    UuidHasNoSlash(t1);
    UuidHasNoSlash(t2);
    StorageKeyInjective(t1, f1, t2, f2);
  }
}

=== FILE: utf8.dfy ===
/**
 * Strict UTF-8, as Python's `bytes.decode("utf-8")` applies it: a byte
 * sequence decodes only when it is a concatenation of well-formed
 * sequences in the sense of table 3-7 of the Unicode Standard (no
 * overlong forms, no surrogates, nothing above U+10FFFF). Dafny's `char`
 * is a Unicode scalar value, so a decoded text is a `string`.
 */
module Utf8 {
  import opened Wrappers

  /** One element of a Python `bytes` object. */
  type Byte = b: int | 0 <= b < 0x100

  /** A continuation byte, 10xxxxxx. */
  predicate IsContinuation(b: Byte) {
    0x80 <= b < 0xC0
  }

  /** The well-formed UTF-8 sequence for one scalar value. */
  function EncodeChar(c: char): (bs: seq<Byte>)
    ensures 1 <= |bs| <= 4
    ensures (bs[0] < 0x80) == (|bs| == 1)
    ensures forall i :: 1 <= i < |bs| ==> IsContinuation(bs[i])
  {
    var cp := c as int;
    if cp < 0x80 then
      [cp]
    else if cp < 0x800 then
      [0xC0 + cp / 0x40, 0x80 + cp % 0x40]
    else if cp < 0x1_0000 then
      [0xE0 + cp / 0x1000, 0x80 + cp / 0x40 % 0x40, 0x80 + cp % 0x40]
    else
      [0xF0 + cp / 0x4_0000, 0x80 + cp / 0x1000 % 0x40, 0x80 + cp / 0x40 % 0x40, 0x80 + cp % 0x40]
  }

  /** The UTF-8 encoding of a text: the encodings of its characters, in order. */
  function Encode(s: string): (bs: seq<Byte>)
    ensures |s| <= |bs| <= 4 * |s|
  {
    if s == [] then [] else EncodeChar(s[0]) + Encode(s[1..])
  }

  /**
   * The scalar value at the head of `bs` and the number of bytes it
   * occupies, or None when the head is not a well-formed sequence.
   * The ranges of the second byte are those of table 3-7.
   */
  function DecodeFirst(bs: seq<Byte>): (r: Option<(char, nat)>)
    requires |bs| > 0
    ensures r.Some? ==> 1 <= r.value.1 <= |bs| && r.value.1 <= 4
  {
    var b0 := bs[0] as int;
    if b0 < 0x80 then
      Some((b0 as char, 1))
    else if 0xC2 <= b0 <= 0xDF then
      if |bs| < 2 || !IsContinuation(bs[1]) then None
      else Some((((b0 - 0xC0) * 0x40 + (bs[1] as int - 0x80)) as char, 2))
    else if 0xE0 <= b0 <= 0xEF then
      var lo := if b0 == 0xE0 then 0xA0 else 0x80;
      var hi := if b0 == 0xED then 0x9F else 0xBF;
      if |bs| < 3 || !(lo <= bs[1] <= hi) || !IsContinuation(bs[2]) then None
      else Some((((b0 - 0xE0) * 0x1000 + (bs[1] as int - 0x80) * 0x40 + (bs[2] as int - 0x80)) as char, 3))
    else if 0xF0 <= b0 <= 0xF4 then
      var lo := if b0 == 0xF0 then 0x90 else 0x80;
      var hi := if b0 == 0xF4 then 0x8F else 0xBF;
      if |bs| < 4 || !(lo <= bs[1] <= hi) || !IsContinuation(bs[2]) || !IsContinuation(bs[3]) then None
      else Some((((b0 - 0xF0) * 0x4_0000 + (bs[1] as int - 0x80) * 0x1000 + (bs[2] as int - 0x80) * 0x40 + (bs[3] as int - 0x80)) as char, 4))
    else
      None
  }

  /** Strict decoding: the text, or None when any part of `bs` is ill-formed. */
  function Decode(bs: seq<Byte>): (r: Option<string>)
    ensures r.Some? ==> |r.value| <= |bs|
    decreases |bs|
  {
    if bs == [] then Some([])
    else
      match DecodeFirst(bs)
      case None => None
      case Some((c, n)) =>
        match Decode(bs[n..])
        case None => None
        case Some(rest) => Some([c] + rest)
  }

  /** Decoding the encoding of one character, whatever follows it, gives that character back. */
  lemma DecodeFirstOfEncodeChar(c: char, rest: seq<Byte>)
    ensures DecodeFirst(EncodeChar(c) + rest) == Some((c, |EncodeChar(c)|))
  {
    var cp := c as int;
    if cp < 0x80 {
    } else if cp < 0x800 {
      DecodeTwo(c, rest);
    } else if cp < 0x1_0000 {
      DecodeThree(c, rest);
    } else {
      DecodeFour(c, rest);
    }
  }

  lemma DecodeTwo(c: char, rest: seq<Byte>)
    requires 0x80 <= c as int < 0x800
    ensures DecodeFirst(EncodeChar(c) + rest) == Some((c, 2))
  {
    var bs := EncodeChar(c) + rest;
    var cp := c as int;
    assert cp == cp / 0x40 * 0x40 + cp % 0x40;
    assert bs[0] as int - 0xC0 == cp / 0x40 && bs[1] as int - 0x80 == cp % 0x40;
  }

  lemma DecodeThree(c: char, rest: seq<Byte>)
    requires 0x800 <= c as int < 0x1_0000
    ensures DecodeFirst(EncodeChar(c) + rest) == Some((c, 3))
  {
    var bs := EncodeChar(c) + rest;
    var cp := c as int;
    var t := cp / 0x40;
    var u := t / 0x40;
    assert cp == t * 0x40 + cp % 0x40;
    assert t == u * 0x40 + t % 0x40;
    assert cp / 0x1000 == u by {
      assert cp == u * 0x1000 + (t % 0x40 * 0x40 + cp % 0x40);
    }
    assert bs[0] as int - 0xE0 == u && bs[1] as int - 0x80 == t % 0x40 && bs[2] as int - 0x80 == cp % 0x40;
  }

  lemma DecodeFour(c: char, rest: seq<Byte>)
    requires 0x1_0000 <= c as int
    ensures DecodeFirst(EncodeChar(c) + rest) == Some((c, 4))
  {
    var bs := EncodeChar(c) + rest;
    var cp := c as int;
    var t := cp / 0x40;
    var u := t / 0x40;
    assert cp == t * 0x40 + cp % 0x40;
    assert t == u * 0x40 + t % 0x40;
    assert cp / 0x1000 == u by {
      assert cp == u * 0x1000 + (t % 0x40 * 0x40 + cp % 0x40);
    }
    assert u == u / 0x40 * 0x40 + u % 0x40;
    assert cp / 0x4_0000 == u / 0x40 by {
      assert cp == u / 0x40 * 0x4_0000 + (u % 0x40 * 0x1000 + t % 0x40 * 0x40 + cp % 0x40);
    }
    assert bs[0] as int - 0xF0 == u / 0x40 && bs[1] as int - 0x80 == u % 0x40;
    assert bs[2] as int - 0x80 == t % 0x40 && bs[3] as int - 0x80 == cp % 0x40;
  }

  /** Splitting a number into a quotient and a 6-bit remainder. */
  lemma SixBits(q: int, r: int)
    requires q >= 0 && 0 <= r < 0x40
    ensures (q * 0x40 + r) / 0x40 == q && (q * 0x40 + r) % 0x40 == r
  {
  }

  /** A well-formed head sequence is exactly the encoding of the character it decodes to. */
  lemma EncodeCharOfDecodeFirst(bs: seq<Byte>)
    requires |bs| > 0 && DecodeFirst(bs).Some?
    ensures EncodeChar(DecodeFirst(bs).value.0) == bs[..DecodeFirst(bs).value.1]
  {
    var b0 := bs[0] as int;
    if b0 < 0x80 {
    } else if b0 <= 0xDF {
      EncodeTwo(bs);
    } else if b0 <= 0xEF {
      EncodeThree(bs);
    } else {
      EncodeFour(bs);
    }
  }

  lemma EncodeTwo(bs: seq<Byte>)
    requires |bs| > 0 && DecodeFirst(bs).Some? && 0x80 <= bs[0] <= 0xDF
    ensures EncodeChar(DecodeFirst(bs).value.0) == bs[..2]
  {
    var c := DecodeFirst(bs).value.0;
    var cp := c as int;
    var d0, d1 := bs[0] as int - 0xC0, bs[1] as int - 0x80;
    assert cp == d0 * 0x40 + d1;
    SixBits(d0, d1);
    assert EncodeChar(c) == [bs[0], bs[1]];
  }

  lemma EncodeThree(bs: seq<Byte>)
    requires |bs| > 0 && DecodeFirst(bs).Some? && 0xE0 <= bs[0] <= 0xEF
    ensures EncodeChar(DecodeFirst(bs).value.0) == bs[..3]
  {
    var c := DecodeFirst(bs).value.0;
    var cp := c as int;
    var d0, d1, d2 := bs[0] as int - 0xE0, bs[1] as int - 0x80, bs[2] as int - 0x80;
    assert cp == (d0 * 0x40 + d1) * 0x40 + d2;
    SixBits(d0 * 0x40 + d1, d2);
    SixBits(d0, d1);
    assert cp / 0x1000 == cp / 0x40 / 0x40;
    assert EncodeChar(c) == [bs[0], bs[1], bs[2]];
  }

  lemma EncodeFour(bs: seq<Byte>)
    requires |bs| > 0 && DecodeFirst(bs).Some? && 0xF0 <= bs[0]
    ensures EncodeChar(DecodeFirst(bs).value.0) == bs[..4]
  {
    var c := DecodeFirst(bs).value.0;
    var cp := c as int;
    var d0, d1, d2, d3 := bs[0] as int - 0xF0, bs[1] as int - 0x80, bs[2] as int - 0x80, bs[3] as int - 0x80;
    assert cp == ((d0 * 0x40 + d1) * 0x40 + d2) * 0x40 + d3;
    SixBits((d0 * 0x40 + d1) * 0x40 + d2, d3);
    SixBits(d0 * 0x40 + d1, d2);
    SixBits(d0, d1);
    assert cp / 0x1000 == cp / 0x40 / 0x40;
    assert cp / 0x4_0000 == cp / 0x40 / 0x40 / 0x40;
    assert EncodeChar(c) == [bs[0], bs[1], bs[2], bs[3]];
  }

  /** Every text survives an encode/decode round trip. */
  lemma {:induction false} DecodeEncode(s: string)
    ensures Decode(Encode(s)) == Some(s)
  {
    if s != [] {
      var e := EncodeChar(s[0]);
      DecodeFirstOfEncodeChar(s[0], Encode(s[1..]));
      DecodeEncode(s[1..]);
      var bs := Encode(s);
      assert bs == e + Encode(s[1..]);
      assert bs[|e|..] == Encode(s[1..]);
      assert Decode(bs) == Some([s[0]] + s[1..]);
      assert [s[0]] + s[1..] == s;
    }
  }

  lemma EncodeCons(c: char, s: string)
    ensures Encode([c] + s) == EncodeChar(c) + Encode(s)
  {
    assert ([c] + s)[1..] == s;
  }

  /** Decoding is injective: a byte sequence that decodes is the encoding of its text. */
  lemma {:induction false} EncodeDecode(bs: seq<Byte>)
    requires Decode(bs).Some?
    ensures Encode(Decode(bs).value) == bs
    decreases |bs|
  {
    if bs != [] {
      var c := DecodeFirst(bs).value.0;
      var n := DecodeFirst(bs).value.1;
      EncodeCharOfDecodeFirst(bs);
      EncodeDecode(bs[n..]);
      assert Decode(bs).value == [c] + Decode(bs[n..]).value;
      EncodeCons(c, Decode(bs[n..]).value);
      assert bs == bs[..n] + bs[n..];
    }
  }
}

=== FILE: wrappers.dfy ===
/** Failure-compatible datatypes shared by the whole model. */
module Wrappers {

  /** A value that may be missing: a nullable column, an optional argument, a lookup. */
  datatype Option<+T> = None | Some(value: T) {

    /** Returns the wrapped value, or `default` when there is none. */
    function GetOr(default: T): T {
      match this
      case Some(v) => v
      case None => default
    }
  }

  /** Either a value or the error that stopped the computation. */
  datatype Result<+T, +E> = Ok(value: T) | Err(error: E) {

    predicate IsFailure() {
      Err?
    }

    function PropagateFailure<U>(): Result<U, E>
      requires Err?
    {
      Err(error)
    }

    function Extract(): T
      requires Ok?
    {
      value
    }
  }

  /** The outcome of a side effect that returns nothing but may fail with a message. */
  datatype Outcome<+E> = Pass | Fail(error: E)
}
